=== FILE: README.md ===
# Course tabs, bookmark breadcrumbs, randomized children, unenrolment refunds and grade export

A Dafny model of five pieces of decision logic from an Open edX learning-management
platform.

- **Course tabs.** These are the entries of a course's navigation menu. There is one
  constructor per tab type: courseware, course info, progress, wiki, discussion, external
  discussion, external link, static tab, the three textbook collections and their leaves,
  staff, peer and open-ended grading, syllabus, notes, and plugin course views. The model
  covers the type-name registry of the `openedx.course_view_type` entry points, each type's
  visibility rule (`is_enabled`), and serialisation to the persisted tab document
  (`to_json`). It also covers equality against a document (`__eq__`), required-field
  validation (`validate`), construction from a document, link resolution, and the expansion
  of a textbook collection into one leaf tab per textbook.
- **Bookmark breadcrumbs.** The path of ancestors stored with a bookmark, and its refresh
  when the block cache is newer than the bookmark.
- **Randomize block.** Sticky per-student choices of children, reset when stale, freshly
  sampled when grades are available, and the grading view of the chosen children.
- **Refund on unenrolment.** The gating, the choice of requester, how the commerce
  service's answers are classified, and the notification e-mail.
- **Grade export.** The token check, the per-user grade records keyed by e-mail and
  course id, and their flattening into 13-column CSV rows.

Modules: `Results` (Option/Result), `Text` (`str(n)`, `sep.join`), `TabModel`,
`TabVisibility`, `TabJson`, `TabLinks`, `Textbooks`, `Bookmarks`, `Randomize`,
`CommerceSignals`, `GradeExport`.

Collaborators become inputs:
- Staff access, enrolment, the current CCX and a plugin view's `is_enabled` are the
  `Oracles` of `TabVisibility`.
- Route reversal is a function argument that can fail (`RouteNotFound`).
- The modulestore's parent chain is a sequence of blocks.
- Grading is a function that returns no summary when it fails.
- The random source is a stream of draws, and the randomize question count is a number.
- The commerce service is a function from the authenticating user to its reply.
- Python's dict iteration order is a listing of the dict's keys.

Modelling assumptions about code not in view:
- The base tab class of `xmodule/tabs.py` is not part of this model. The model takes its
  `to_json` to emit `type` and `name`, and its equality to compare `type` and `name`.
- Its `validate` is taken to require `type`, its `is_enabled` to be true, and its
  `from_json` to look the type up, validate with raising, then construct.
- A tab with no link function (a textbook collection) resolves to no target.

## Model

| member | source | states |
|---|---|---|
| TabModel.Lookup | setup.py:21-40 | a registered type name yields the tab type whose `type` is that name; `single_textbook` is not registered |
| TabModel.RegisteredKinds | setup.py:21-40 | every built-in tab type is registered under its own type name; a course view is registered exactly for `ccx`, `edxnotes` and `instructor` |
| TabVisibility.IsEnabled | openedx/core/djangoapps/content/course_views/tabs.py:177-382 | the discussion tab is hidden inside a CCX when custom courses are on; the wiki is hidden when the wiki is off; the textbooks tab is hidden when `ENABLE_TEXTBOOK` is off, for every viewer |
| TabVisibility.IsEnabledFollowsPolicy | openedx/core/djangoapps/content/course_views/tabs.py:30-557 | every tab type's `is_enabled` is exactly its role requirement (everyone, authenticated, enrolled-or-staff, staff, wiki readers) combined with its gates (feature flag, wiki switch, CCX, progress, syllabus, plugin) |
| TabVisibility.PreviewShowsEveryGatedTab | openedx/core/djangoapps/content/course_views/tabs.py:34-54 | with no viewer, a tab is shown iff its gates are open: no role rule hides anything |
| TabVisibility.StaffSeesRoleGatedTabs | openedx/core/djangoapps/content/course_views/tabs.py:15-27 | a viewer with staff access sees every staff-only and enrolled-or-staff tab whose gates are open, enrolled or not |
| TabVisibility.AuthenticatedOnlyRule | openedx/core/djangoapps/content/course_views/tabs.py:34-35 | peer grading, open-ended, PDF and HTML textbook tabs are shown iff there is no viewer or the viewer is authenticated |
| TabVisibility.EnrolledOrStaffRule | openedx/core/djangoapps/content/course_views/tabs.py:22-46 | courseware is always shown with no viewer, and otherwise iff the viewer is staff or enrolled |
| TabVisibility.StaffOnlyRule | openedx/core/djangoapps/content/course_views/tabs.py:49-54 | staff grading is shown iff there is no viewer or the viewer is staff |
| TabVisibility.ProgressRule | openedx/core/djangoapps/content/course_views/tabs.py:151-153 | progress is shown iff the enrolled-or-staff rule holds and `hide_progress_tab` is false |
| TabVisibility.WikiRule | openedx/core/djangoapps/content/course_views/tabs.py:177-182 | the wiki is never shown without `WIKI_ENABLED`; otherwise it is shown to no viewer or on a public wiki, and else iff the enrolled-or-staff rule holds |
| TabVisibility.DiscussionRule | openedx/core/djangoapps/content/course_views/tabs.py:205-210 | outside a CCX, discussion is shown iff `ENABLE_DISCUSSION_SERVICE` is on and the enrolled-or-staff rule holds |
| TabJson.ToJson | openedx/core/djangoapps/content/course_views/tabs.py:83-343 | a textbook leaf raises; any other tab's document holds exactly its type and name, plus `is_hidden: true` only when hidden, `link` for link tabs and `url_slug` for static tabs |
| TabJson.Eq | openedx/core/djangoapps/content/course_views/tabs.py:89-329 | equality demands equal type and name; a missing `is_hidden` compares as false; link tabs also compare `link` and static tabs `url_slug` |
| TabJson.EqIsValueEquality | openedx/core/djangoapps/content/course_views/tabs.py:89-329 | for well-formed tabs t and u, t equals u's document iff t and u are the same tab, so equality looks at every persisted field |
| TabJson.MissingHiddenReadsAsFalse | openedx/core/djangoapps/content/course_views/tabs.py:89-92 | a wiki document without `is_hidden` equals the visible wiki tab and not the hidden one |
| TabJson.Validate | openedx/core/djangoapps/content/course_views/tabs.py:130-537 | validation succeeds iff the type's required keys are present: `name` for course info, progress, wiki, discussion and notes, `link` for link tabs, and `name` and `url_slug` for static tabs; when it fails it raises, naming only missing keys, or returns false |
| TabJson.Construct | openedx/core/djangoapps/content/course_views/tabs.py:104-551 | a constructed tab has the requested type; the only failures are a missing document and a missing key |
| TabJson.ValidDocumentsConstruct | openedx/core/djangoapps/content/course_views/tabs.py:122-551 | a document that validates constructs, except that external links and course views also need a `name` their validation does not check |
| TabJson.FromJson | setup.py:21-40 | a rebuilt tab's type is the document's `type`, and its required keys were present; an unregistered type fails with `UnknownTabType` |
| TabJson.RoundTrip | openedx/core/djangoapps/content/course_views/tabs.py:83-329 | serialising a well-formed tab and rebuilding it through the registry gives the same tab back |
| TabLinks.LinkRuleOf | openedx/core/djangoapps/content/course_views/tabs.py:104-573 | a named-route link always passes the course id first; exactly the two link tabs use a literal, and exactly the textbook collections have no link |
| TabLinks.Link | openedx/core/djangoapps/content/course_views/tabs.py:560-573 | link tabs resolve to their configured value and collections to no target; a named route resolves to the URL the reversal gives for its route and arguments, and the link fails, with `RouteNotFound` for that route, exactly when the reversal knows no URL |
| TabLinks.LinkDependsOnlyOnItsRoute | openedx/core/djangoapps/content/course_views/tabs.py:561-573 | two route tables that agree on a tab's own route and arguments give it the same link |
| TabLinks.NamedRouteLinks | openedx/core/djangoapps/content/course_views/tabs.py:301-566 | a static tab reverses `static_tab` with the course id and its slug, a textbook leaf its shelf's route with the course id and its index, and every other routed tab its own route with the course id alone |
| TabLinks.LiteralLinksIgnoreRoutes | openedx/core/djangoapps/content/course_views/tabs.py:569-573 | a literal link's URL does not depend on the route table |
| TabLinks.OnlyExternalLinksLackId | openedx/core/djangoapps/content/course_views/tabs.py:282-287 | only the external link tab has no `tab_id`, so it is never active |
| Textbooks.Leaves | openedx/core/djangoapps/content/course_views/tabs.py:384-392 | enumerating titles from `start` gives one leaf per title, in order, leaf i carrying title i and index start+i |
| Textbooks.Items | openedx/core/djangoapps/content/course_views/tabs.py:384-438 | N textbooks expand to exactly N collection-item leaves, in course order, named by their titles, with ids `textbook/i`, `pdftextbook/i` or `htmltextbook/i` |
| Textbooks.LeafIdsDistinct | openedx/core/djangoapps/content/course_views/tabs.py:384-438 | the leaves' tab ids are pairwise distinct |
| Textbooks.LeavesLinkByIndex | openedx/core/djangoapps/content/course_views/tabs.py:342-438 | leaf i reverses `book`, `pdf_book` or `html_book` with the course id and i, and refuses serialisation |
| Text.NatToStringInjective | openedx/core/djangoapps/content/course_views/tabs.py:388 | distinct indices format to distinct strings |
| Bookmarks.ClimbLength | lms/djangoapps/bookmarks/models.py:79-84 | the walk covers exactly the ancestors before the first course block, or all of them if no course block is reached |
| Bookmarks.GetPathAsWritten | lms/djangoapps/bookmarks/models.py:71-87 | the path has min(2, ancestors walked) entries: the NEAREST ancestors, reversed, each holding that ancestor's display name and usage id |
| Bookmarks.Breadcrumbs | lms/djangoapps/bookmarks/models.py:71-87 | the corrected path has min(2, ancestors walked) entries: the two top-most ancestors below the course, top first |
| Bookmarks.GetPath | lms/djangoapps/bookmarks/models.py:79-87 | the corrected walk-reverse-then-truncate loop computes exactly the breadcrumbs |
| Bookmarks.BreadcrumbsShape | lms/djangoapps/bookmarks/models.py:79-87 | at most two entries, empty for a block without a parent, and every entry is an ancestor met before the course block |
| Bookmarks.UnitExclusionExample | lms/djangoapps/bookmarks/models.py:79-86 | on course, chapter, sequential, vertical, the walk stops after three ancestors and the corrected path is [chapter, sequential] |
| Bookmarks.UnitExclusionAsWritten | lms/djangoapps/bookmarks/models.py:79-87 | on the same chain the code as written returns [sequential, vertical], keeping the unit |
| Bookmarks.SetPath | lms/djangoapps/bookmarks/models.py:46-51 | the setter stores the value, so the path is no longer null, and leaves the timestamps and the block cache alone |
| Bookmarks.ReadPathAsWritten | lms/djangoapps/bookmarks/models.py:29-44 | the getter as written always raises `AttributeError`: on `None` without a block cache, and on the cache's missing `updated` with one |
| Bookmarks.ReadPath | lms/djangoapps/bookmarks/models.py:25-44 | the getter as intended, comparing with the block cache's modification time: reading fails with `AttributeError` when the nullable block cache is missing, and with `TypeError` when a bookmark that is not stale has never had a path written; a stale bookmark (older than its block cache) first recomputes and stores its path; otherwise the stored path is returned; the timestamps and cache never change |
| Bookmarks.ReadAfterWrite | lms/djangoapps/bookmarks/models.py:35-51 | after a write the path is readable whenever there is a block cache (and still fails without one); a bookmark that is not stale reads back the last value written; reading twice reads the same path |
| Bookmarks.StaleReadExample | lms/djangoapps/bookmarks/models.py:35-44 | a stale bookmark of a four-level course that has a block cache and a written path: the getter as written raises, and the intended getter refreshes the path to [chapter, sequential] |
| Randomize.SampleFrom | common/lib/xmodule/xmodule/randomize_module.py:100 | sampling k from a pool gives k pool elements, distinct when the pool is |
| Randomize.Sample | common/lib/xmodule/xmodule/randomize_module.py:100 | a sample of k indices out of n fails iff k > n; otherwise it has k distinct indices, each below n |
| Randomize.Pick | common/lib/xmodule/xmodule/randomize_module.py:104-106 | the child list has one entry per choice, entry k being `children[choices[k]]` |
| Randomize.Init | common/lib/xmodule/xmodule/randomize_module.py:72-112 | valid stored choices are kept; stale or empty ones are dropped; a new sample is taken exactly when there are children and grades, and it succeeds when the question count does not exceed the children; new choices are distinct, below n and `question_count` many; `child_descriptor` is present iff choices are, with `child_descriptor[k] == children[choices[k]]` |
| Randomize.SelectionIsSticky | common/lib/xmodule/xmodule/randomize_module.py:87-91 | constructing again from the stored choices keeps them, whatever the grades, question count and random draws are then |
| Randomize.ChildDescriptorsAreTheChosen | common/lib/xmodule/xmodule/randomize_module.py:104-127 | after construction, `get_child_descriptors()` is the children named by the choices, in choice order, and `[]` when nothing was chosen |
| Randomize.MaxScore | common/lib/xmodule/xmodule/randomize_module.py:114-118 | there is no max score iff nothing was chosen; summing raises `TypeError` iff some chosen child has no max score |
| Randomize.EqualWorthMaxScore | common/lib/xmodule/xmodule/randomize_module.py:63-118 | if every chosen child is worth s points, as the block's notes require, the max score is s times the number of chosen children |
| Randomize.GradedChildrenAreTheChosen | common/lib/xmodule/xmodule/randomize_module.py:114-187 | because the block has dynamic children, grading visits exactly the chosen children (`question_count` of them after a fresh sample); the max score sums over them and raises iff one of them has no score; with nothing chosen there are none and no max score |
| Randomize.PlaceholderIffNothingChosen | common/lib/xmodule/xmodule/randomize_module.py:87-132 | `student_view` shows "Nothing to randomize between" exactly when no valid choices were stored and none could be drawn (no children or no grades) |
| CommerceSignals.RefundUrls | lms/djangoapps/commerce/signals.py:136 | one URL per refund id, in order, of the form `{API}/dashboard/refunds/{id}/` |
| Text.JoinWithTrailingEmpty | lms/djangoapps/commerce/signals.py:137 | joining with a trailing `''` ends every line, the last one included, with the separator |
| CommerceSignals.SendRefundNotification | lms/djangoapps/commerce/signals.py:119-146 | sending fails iff inside a microsite; otherwise the mail goes from and to the payment-support address, and its text is the message then the URLs, each ended by CRLF |
| CommerceSignals.NotificationLines | lms/djangoapps/commerce/signals.py:133-137 | the text body starts with the message line and has length equal to the lines plus one CRLF per line |
| CommerceSignals.RefundSeat | lms/djangoapps/commerce/signals.py:58-116 | created refunds are returned unchanged, whether or not the notification goes out; a 403 with a requester other than the student (or none) returns `[]`; any other client error, or any other failure, is raised |
| CommerceSignals.HandleUnenrollDone | lms/djangoapps/commerce/signals.py:20-43 | a refund is attempted iff the service is configured, `skip_refund` is unset and the enrolment exists and is refundable; the requester is the request user, or else the student; the attempt is `refund_seat` for that enrolment as that requester, and its outcome, including a raised error, stays inside the handler |
| CommerceSignals.HandlerRequester | lms/djangoapps/commerce/signals.py:31-97 | without a request user the handler authenticates as the student, with one as that user; a student's own 403 is re-raised, not excused |
| CommerceSignals.HandlerOutcomeFollowsReply | lms/djangoapps/commerce/signals.py:31-116 | with the service configured and no skip, a refundable enrolment is always attempted; the refunds the service creates are kept; "nothing to refund" happens exactly when the service creates none or answers 403 to someone other than the student; the handler swallows an error exactly for a service failure or any other client error |
| GradeExport.TokenRule | lms/djangoapps/custom_api/views.py:101-102 | the token check holds iff the `token` parameter (or `""` when missing) equals the configured token; an unset token admits nobody |
| GradeExport.MetadataFieldValue | lms/djangoapps/custom_api/views.py:122-128 | the field's value when the field and its value are not None, the default otherwise; a missing field or `value` key raises |
| GradeExport.StudentGradesAsWritten | lms/djangoapps/custom_api/views.py:114-119 | as written, the loop succeeds only if every course could be graded |
| GradeExport.StudentGrades | lms/djangoapps/custom_api/views.py:114-119 | the corrected loop has exactly one entry per gradable course id; under each id is the entry of the LAST course with that id that could be graded, holding its grade summary and its `display_name` metadata value (or ""); it fails only on missing display-name metadata |
| GradeExport.LastGradedStep | lms/djangoapps/custom_api/views.py:114-119 | grading one more course keeps, under every id, the entry of the last graded course with that id |
| GradeExport.UngradableCourseExample | lms/djangoapps/custom_api/views.py:116-149 | one course grading fails on makes the code as written raise `TypeError`, while the corrected loop skips it |
| GradeExport.AllUserGrades | lms/djangoapps/custom_api/views.py:50-53 | the records are keyed by exactly the users' e-mails; under each e-mail is the record of the LAST user with it, holding that user's account and grades; the loop succeeds iff every user's grades can be built |
| GradeExport.DataRow | lms/djangoapps/custom_api/views.py:70-78 | a data row has 13 cells: the seven user fields, then the course id, display name, percent, grade (`""` when falsy), category and category percent |
| GradeExport.CourseRows | lms/djangoapps/custom_api/views.py:69-79 | one row per breakdown category, in order |
| GradeExport.CsvRows | lms/djangoapps/custom_api/views.py:58-60 | the output starts with the fixed 13-column header row |
| GradeExport.CsvShape | lms/djangoapps/custom_api/views.py:58-79 | with each user's own course dict iterated once per key, the output has the header plus exactly one row per (user, course, category) position of the records, each 13 cells wide |
| GradeExport.CsvRowsAreTheTriples | lms/djangoapps/custom_api/views.py:64-79 | a row is a data row iff it is the row of some (user, course, category) in the records |
| GradeExport.AllGrades | lms/djangoapps/custom_api/views.py:41-81 | an invalid token is forbidden; with a valid token the export fails only when building the records fails, and otherwise yields JSON when JSON is asked for and CSV otherwise; the JSON is exactly the records of `all_user_grades`, keyed by every user's e-mail; the CSV is exactly the flattened rows, so the header plus one row per position of the records |

## Findings

| source | as written | input that shows it | evidently intended | confidence | as-written member | corrected member |
|---|---|---|---|---|---|---|
| lms/djangoapps/bookmarks/models.py:85-86 | keeps `parents_data[:2]` of the nearest-first list, then reverses | a component under vertical, sequential, chapter, course gives [sequential, vertical] | reverse first, then keep two: [chapter, sequential]. That starts from the top of the course tree, as the docstring at lines 73-74 says, and excludes the unit, as the comment at line 85 says. The docstring's "till the parent" fits neither version | medium, not executed | Bookmarks.GetPathAsWritten, Bookmarks.UnitExclusionAsWritten | Bookmarks.GetPath |
| lms/djangoapps/bookmarks/models.py:40 | the getter compares with `self.block_cache.updated`, but the block cache class (lines 90-96) keeps its timestamps as `created` and `modified` and has no `updated` | any bookmark with a block cache: the read raises `AttributeError` | compare with the cache's `modified` time | medium, not executed | Bookmarks.ReadPathAsWritten, Bookmarks.StaleReadExample | Bookmarks.ReadPath |
| lms/djangoapps/custom_api/views.py:116-117 | `grades_for_student` returns `None` after logging a grading error, and `course_grades['course_display_name'] = ...` then raises `TypeError` | any user with one course whose grading raises | skip that course and keep going, as the logging comment says | medium, not executed | GradeExport.StudentGradesAsWritten, GradeExport.UngradableCourseExample | GradeExport.StudentGrades |

The rest of the model uses the corrected members. `Bookmarks.ReadPath` compares with the
cache's `modified` time and recomputes with `Breadcrumbs`, and `GradeExport.StudentInfoOf`
uses `StudentGrades`. These differences from the program as written are listed under
"## Left out".

## Left out

- The base tab class, `key_checker`, `need_name` and `CourseTabList` iteration in `xmodule/tabs.py` are not part of this model. Their behaviour is assumed as stated above.
- Dict-style access to tabs (`__getitem__`/`__setitem__`) is left out. It is replaced by the named fields of each constructor.
- Tab documents hold only string, boolean and `None` values. Other JSON values are not modelled.
- Translation (`_`, `ugettext`) is the identity.
- Textbooks.Items: PDF and HTML textbooks are given by their `tab_title` strings. The `KeyError` of a textbook dict without `tab_title` is not modelled.
- Plugin course views: their `title`, `view_name` and `is_enabled` are oracles. Entry-point discovery is replaced by the static registry.
- Bookmarks.ReadPath: staleness is judged against the block cache's `modified` time. As written, line 40 reads a cache attribute `updated` that does not exist, so every read with a cache raises (`ReadPathAsWritten`).
- Bookmarks.ReadPath: a stale bookmark is refreshed with the corrected `Breadcrumbs`. The program as written stores the nearest two ancestors reversed (`GetPathAsWritten`), so on a four-level course it stores [sequential, vertical] where the model stores [chapter, sequential].
- Bookmarks.ReadAfterWrite: stated about the intended getter. As written, every read of a bookmark raises, before or after a write (`ReadPathAsWritten`).
- Bookmarks: as written the module cannot be imported. Line 29 names `XBlockCache` before its definition at line 90, and line 105 decorates with `path.setter` although that class defines no `path`; both raise `NameError`. The model assumes the evident intent: a lazy reference to the cache model, and a `paths` setter.
- GradeExport.AllUserGrades: records are built with the corrected `StudentGrades`, which skips a course whose grading fails. The program as written raises `TypeError` there, so its export (and `GradeExport.AllGrades`) fails on inputs where the model succeeds.
- The tab attribute `is_movable` and the bookmark property `display_name` are plain attributes that no modelled operation reads.
- Bookmarks: persistence and the modulestore are left out. JSON encoding of the path is the identity.
- `Bookmark.create` is left out because it refers to an undefined `bookmark_data`. `XBlockCache` is modelled only by its modification time and display name: nothing modelled reads its `paths`, whose setter would in any case write `_path` rather than `_paths`.
- Randomize.Init: the floating-point `question_count` formula is an input. Python's random generator is an arbitrary stream of draws.
- Randomize.Init: stored choices are non-negative. A negative stored index, which `random.sample` never produces, would index from the end in Python.
- Randomize.MaxScore: a child's `max_score()` is a whole number or `None`. Floating-point scores are not modelled.
- Randomize: grading through a request factory, `student_view` rendering beyond its placeholder case, `author_view`, `get_icon_class` and XML export are left out.
- CommerceSignals: the HTTP client, logging, sending the e-mail and the thread-local request cache are left out.
- CommerceSignals: an anonymous request user is not modelled. The request user is either absent or a real user.
- CommerceSignals.SendRefundNotification: the HTML alternative body is built but no property is stated about it.
- GradeExport: the CSV writer and its charset encoding, the REST renderers, the ORM queries, `grades.grade` itself and the single-user `user_grades` view are left out.
- GradeExport: cells are not rendered to text. The order in which Python 2 iterates a dict is an input.
- UI, views, URL configuration and tests are left out: the JavaScript views, the Selenium acceptance tests, the bookmark view tests, the URL configurations and the credit eligibility view.

=== FILE: bookmarks.dfy ===
/** Breadcrumb paths of bookmarks (`Bookmark.get_path` and the `Bookmark.path` property of
    `lms/djangoapps/bookmarks/models.py`). The modulestore is abstracted to the chain of
    `get_parent()` results of the bookmarked block, nearest first, ending where
    `get_parent()` returns `None`. */
module Bookmarks {
  import opened Results

  /** A block of the course tree: its `location.block_type`, `display_name` and location. */
  datatype Block = Block(blockType: string, displayName: string, usageId: string)

  /** One breadcrumb: `{"display_name": ..., "usage_id": ...}`. */
  datatype PathEntry = PathEntry(displayName: string, usageId: string)

  /** The cached block data a bookmark points at (`XBlockCache`): the modification time its
      timestamped base class keeps, and the display name. */
  datatype BlockCache = BlockCache(modified: int, displayName: string)

  /** A stored bookmark; the JSON text of `_path` is modelled by the value it encodes. Both
      `_path` and the `block_cache` foreign key are nullable columns. */
  datatype Bookmark = Bookmark(updated: int, storedPath: Option<seq<PathEntry>>, blockCache: Option<BlockCache>)

  /** How reading the path raises: `AttributeError` on `None.updated` for a bookmark without
      a block cache, `AttributeError` on a block cache's `updated` (the cache keeps its
      timestamps as `created` and `modified`), and `TypeError` from `json.loads(None)` for a
      bookmark whose path was never written. */
  datatype ReadError = NoBlockCache | NoUpdatedAttribute | NullPath

  function Entry(b: Block): PathEntry {
    PathEntry(b.displayName, b.usageId)
  }

  function Min(a: nat, b: nat): nat {
    if a <= b then a else b
  }

  /** `list.reverse()`. */
  function Reverse<T>(s: seq<T>): (r: seq<T>)
    ensures |r| == |s|
    ensures forall i :: 0 <= i < |s| ==> r[i] == s[|s| - 1 - i]
    decreases |s|
  {
    if |s| == 0 then [] else Reverse(s[1..]) + [s[0]]
  }

  /** How far the walk up the parent chain gets: to the first course block, or to the root. */
  function ClimbLength(chain: seq<Block>): (k: nat)
    ensures k <= |chain|
    ensures forall i :: 0 <= i < k ==> chain[i].blockType != "course"
    ensures k < |chain| ==> chain[k].blockType == "course"
    decreases |chain|
  {
    if |chain| == 0 || chain[0].blockType == "course" then 0 else 1 + ClimbLength(chain[1..])
  }

  /** `get_path` as written: it keeps the two NEAREST ancestors, then reverses them, so the
      block's own unit (the vertical right above it) is kept and the chapter is dropped. */
  method GetPathAsWritten(chain: seq<Block>) returns (path: seq<PathEntry>)
    ensures |path| == Min(2, ClimbLength(chain))
    ensures forall j :: 0 <= j < |path| ==> path[j] == Entry(chain[|path| - 1 - j])
  {
    var parents: seq<PathEntry> := [];
    var i := 0;
    while i < |chain| && chain[i].blockType != "course"
      invariant i <= ClimbLength(chain)
      invariant |parents| == i
      invariant forall j :: 0 <= j < i ==> parents[j] == Entry(chain[j])
    {
      parents := parents + [Entry(chain[i])];
      i := i + 1;
    }
    if |parents| > 2 {
      parents := parents[..2];
    }
    path := Reverse(parents);
  }

  /** The breadcrumbs the source means to keep: the walk's ancestors from the top of the
      course down, without the unit that directly contains the block, i.e. the two
      top-most ancestors below the course. */
  function Breadcrumbs(chain: seq<Block>): (r: seq<PathEntry>)
    ensures |r| == Min(2, ClimbLength(chain))
    ensures forall j :: 0 <= j < |r| ==> r[j] == Entry(chain[ClimbLength(chain) - 1 - j])
  {
    var k := ClimbLength(chain);
    seq(Min(2, k), j requires 0 <= j < Min(2, k) => Entry(chain[k - 1 - j]))
  }

  /** `get_path` corrected: walk up, reverse, THEN keep the first two. */
  method GetPath(chain: seq<Block>) returns (path: seq<PathEntry>)
    ensures path == Breadcrumbs(chain)
  {
    var parents: seq<PathEntry> := [];
    var i := 0;
    while i < |chain| && chain[i].blockType != "course"
      invariant i <= ClimbLength(chain)
      invariant |parents| == i
      invariant forall j :: 0 <= j < i ==> parents[j] == Entry(chain[j])
    {
      parents := parents + [Entry(chain[i])];
      i := i + 1;
    }
    parents := Reverse(parents);
    if |parents| > 2 {
      parents := parents[..2];
    }
    path := parents;
  }

  /** The breadcrumbs never name the course, have at most two entries, and are empty for a
      block without a parent; every entry is an ancestor reached before the course. */
  lemma BreadcrumbsShape(chain: seq<Block>)
    ensures |Breadcrumbs(chain)| <= 2
    ensures |chain| == 0 ==> Breadcrumbs(chain) == []
    ensures forall j :: 0 <= j < |Breadcrumbs(chain)| ==>
      exists i :: 0 <= i < ClimbLength(chain) && Breadcrumbs(chain)[j] == Entry(chain[i])
  {
    var k := ClimbLength(chain);
    forall j | 0 <= j < |Breadcrumbs(chain)|
      ensures exists i :: 0 <= i < k && Breadcrumbs(chain)[j] == Entry(chain[i])
    {
      assert Breadcrumbs(chain)[j] == Entry(chain[k - 1 - j]);
    }
  }

  /** The usual four-level course (course, chapter, sequential, vertical, then the bookmarked
      component): the walk stops at the course after three ancestors, and the corrected path
      is [chapter, sequential], without the unit. */
  lemma UnitExclusionExample()
    ensures ClimbLength(FourLevelChain()) == 3
    ensures Breadcrumbs(FourLevelChain()) == [PathEntry("Week", "c"), PathEntry("Lesson", "s")]
  {
    var chain := FourLevelChain();
    assert chain[1..][1..][1..][0].blockType == "course";
    assert ClimbLength(chain) == 3;
  }

  /** The parent chain of a component in the usual four-level course. */
  function FourLevelChain(): seq<Block> {
    [Block("vertical", "Unit", "v"), Block("sequential", "Lesson", "s"),
     Block("chapter", "Week", "c"), Block("course", "Course", "k")]
  }

  /** The program as written on that chain: the path keeps the unit and drops the chapter. */
  method UnitExclusionAsWritten() returns (path: seq<PathEntry>)
    ensures path == [PathEntry("Lesson", "s"), PathEntry("Unit", "v")]
  {
    UnitExclusionExample();
    path := GetPathAsWritten(FourLevelChain());
  }

  /** The `path` setter: stores the value (its JSON) and nothing else. */
  function SetPath(b: Bookmark, value: seq<PathEntry>): (r: Bookmark)
    ensures r.storedPath == Some(value)
    ensures r.updated == b.updated && r.blockCache == b.blockCache
  {
    b.(storedPath := Some(value))
  }

  /** The `path` getter as written: the freshness test reads `self.block_cache.updated`, which
      raises whether or not there is a block cache, so no read gets past it. */
  function ReadPathAsWritten(b: Bookmark, chain: seq<Block>): (r: Result<(seq<PathEntry>, Bookmark), ReadError>)
    ensures r.Failure?
    ensures r.error == NoUpdatedAttribute <==> b.blockCache.Some?
  {
    if b.blockCache.None? then Failure(NoBlockCache) else Failure(NoUpdatedAttribute)
  }

  /** The bookmark was saved before its block cache last changed. */
  predicate Stale(b: Bookmark) {
    b.blockCache.Some? && b.updated < b.blockCache.value.modified
  }

  /** The `path` getter as evidently intended, comparing with the block cache's modification
      time: the freshness test reads the block cache first; a bookmark older than
      its block cache recomputes its path from the block (through the setter, which does not
      touch `updated`); then the stored text is parsed. Returns the value read and the
      bookmark afterwards. */
  function ReadPath(b: Bookmark, chain: seq<Block>): (r: Result<(seq<PathEntry>, Bookmark), ReadError>)
    ensures r.Failure? <==> b.blockCache.None? || (!Stale(b) && b.storedPath.None?)
    ensures b.blockCache.None? ==> r == Failure(NoBlockCache)
    ensures b.blockCache.Some? && !Stale(b) && b.storedPath.None? ==> r == Failure(NullPath)
    ensures b.blockCache.Some? && !Stale(b) && b.storedPath.Some? ==> r == Success((b.storedPath.value, b))
    ensures Stale(b) ==> r.Success? && r.value.0 == Breadcrumbs(chain) && r.value.1.storedPath == Some(r.value.0)
    ensures r.Success? ==> r.value.1.updated == b.updated && r.value.1.blockCache == b.blockCache
  {
    if b.blockCache.None? then Failure(NoBlockCache)
    else
      var current := if b.updated < b.blockCache.value.modified then SetPath(b, Breadcrumbs(chain)) else b;
      match current.storedPath
      case None => Failure(NullPath)
      case Some(path) => Success((path, current))
  }

  /** A stale bookmark of the four-level course, with a block cache and a written path: the
      getter as written raises, and as intended it refreshes the path to the breadcrumbs. */
  lemma StaleReadExample()
    ensures var b := Bookmark(0, Some([]), Some(BlockCache(1, "Unit")));
      && ReadPathAsWritten(b, FourLevelChain()) == Failure(NoUpdatedAttribute)
      && ReadPath(b, FourLevelChain()).Success?
      && ReadPath(b, FourLevelChain()).value.0 == [PathEntry("Week", "c"), PathEntry("Lesson", "s")]
  {
    UnitExclusionExample();
  }

  /** Reading returns the last value written unless the cache is newer, a write makes the
      path readable whenever there is a block cache, and reading twice reads the same path. */
  lemma ReadAfterWrite(b: Bookmark, value: seq<PathEntry>, chain: seq<Block>)
    ensures b.blockCache.Some? ==> ReadPath(SetPath(b, value), chain).Success?
    ensures b.blockCache.None? ==> ReadPath(SetPath(b, value), chain) == Failure(NoBlockCache)
    ensures !Stale(b) && b.blockCache.Some? ==> ReadPath(SetPath(b, value), chain).value.0 == value
    ensures ReadPath(b, chain).Success? ==>
      && ReadPath(ReadPath(b, chain).value.1, chain).Success?
      && ReadPath(ReadPath(b, chain).value.1, chain).value.0 == ReadPath(b, chain).value.0
  {
  }
}

=== FILE: commerce_signals.dfy ===
/** The refund-on-unenrolment decision of `lms/djangoapps/commerce/signals.py`: whether a
    refund is attempted, as whom, how the commerce service's answers are classified, and the
    notification e-mail. The service client, the request cache, the microsite check and the
    mailer are inputs. */
module CommerceSignals {
  import opened Results
  import Text

  datatype User = User(id: nat, username: string, email: string)

  /** A course enrolment being undone; `refundable` is `course_enrollment.refundable()`. */
  datatype Enrollment = Enrollment(user: User, courseId: string, refundable: bool)

  /** What `refunds.post(...)` does: return the new refund ids, raise an HTTP client error
      (a 4xx status), or raise anything else (a server error, a timeout). */
  datatype ServiceReply = Created(refundIds: seq<nat>) | ClientError(status: nat) | OtherError

  datatype RefundError = HttpClientError(status: nat) | ServiceError

  /** `settings.ECOMMERCE_API_URL` and `settings.PAYMENT_SUPPORT_EMAIL`. */
  datatype Config = Config(apiUrl: string, supportEmail: string)

  datatype Email = Email(subject: string, textBody: string, htmlBody: string, fromEmail: string, to: seq<string>)

  /** Sending is refused inside a microsite. */
  datatype NotifyError = NotImplementedInMicrosite

  /** What became of the notification: none for an empty refund, else the e-mail or the
      failure that was logged and swallowed. */
  datatype Notification = NotNeeded | Sent(email: Email) | SendFailed

  /** `refund_seat`'s return value, together with what happened to the notification. */
  datatype Refund = Refund(refundIds: seq<nat>, notification: Notification)

  /** The handler's observable effect: either no attempt, or an attempt as `requester` whose
      outcome (including any exception) stays inside the handler. */
  datatype HandlerOutcome = NoAttempt | Attempted(requester: User, outcome: Result<Refund, RefundError>)

  const CRLF: string := "\r\n"

  /** The notification's message line. */
  function Message(u: User): string {
    "A refund request has been initiated for " + u.username + " (" + u.email + "). "
    + "To process this request, please visit the link(s) below."
  }

  /** One dashboard URL per refund id. */
  function RefundUrls(apiUrl: string, ids: seq<nat>): (r: seq<string>)
    ensures |r| == |ids|
    ensures forall i :: 0 <= i < |ids| ==> r[i] == apiUrl + "/dashboard/refunds/" + Text.NatToString(ids[i]) + "/"
  {
    seq(|ids|, i requires 0 <= i < |ids| => apiUrl + "/dashboard/refunds/" + Text.NatToString(ids[i]) + "/")
  }

  function Anchor(url: string): string {
    "<a href=\"" + url + "\">" + url + "</a>"
  }

  /** `send_refund_notification`: refused inside a microsite, else an e-mail to and from the
      payment-support address whose text body is the message and the URLs, each line ended
      by CRLF. */
  function SendRefundNotification(inMicrosite: bool, cfg: Config, e: Enrollment, ids: seq<nat>): (r: Result<Email, NotifyError>)
    ensures r.Failure? <==> inMicrosite
    ensures r.Success? ==>
      && r.value.subject == "[Refund] User-Requested Refund"
      && r.value.fromEmail == cfg.supportEmail && r.value.to == [cfg.supportEmail]
      && r.value.textBody == Text.Terminated(CRLF, [Message(e.user)] + RefundUrls(cfg.apiUrl, ids))
  {
    if inMicrosite then Failure(NotImplementedInMicrosite)
    else
      var urls := RefundUrls(cfg.apiUrl, ids);
      var text := Text.Join(CRLF, [Message(e.user)] + urls + [""]);
      Text.JoinWithTrailingEmpty(CRLF, [Message(e.user)] + urls);
      var html := "<p>" + Text.Join("<br>", [Message(e.user)] + seq(|urls|, i requires 0 <= i < |urls| => Anchor(urls[i]))) + "</p>";
      Success(Email("[Refund] User-Requested Refund", text, html, cfg.supportEmail, [cfg.supportEmail]))
  }

  /** `request_user == unenrolled_user` (model instances compare by primary key); no request
      user is never the student. */
  predicate IsStudent(requestUser: Option<User>, e: Enrollment) {
    requestUser.Some? && requestUser.value.id == e.user.id
  }

  /** Whom the service is asked as: `request_user or unenrolled_user`. */
  function ClientUser(e: Enrollment, requestUser: Option<User>): User {
    requestUser.GetOr(e.user)
  }

  /** `refund_seat`: `post` is the service as seen by the user it authenticates as. */
  function RefundSeat(e: Enrollment, requestUser: Option<User>, post: User -> ServiceReply,
                      inMicrosite: bool, cfg: Config): (r: Result<Refund, RefundError>)
    ensures post(ClientUser(e, requestUser)).Created? ==>
      r.Success? && r.value.refundIds == post(ClientUser(e, requestUser)).refundIds
    ensures post(ClientUser(e, requestUser)) == ClientError(403) && !IsStudent(requestUser, e) ==>
      r == Success(Refund([], NotNeeded))
    ensures post(ClientUser(e, requestUser)).ClientError? && !(post(ClientUser(e, requestUser)).status == 403 && !IsStudent(requestUser, e)) ==>
      r == Failure(HttpClientError(post(ClientUser(e, requestUser)).status))
    ensures post(ClientUser(e, requestUser)).OtherError? ==> r == Failure(ServiceError)
    ensures r.Success? && |r.value.refundIds| > 0 ==>
      (r.value.notification.Sent? <==> !inMicrosite)
  {
    match post(ClientUser(e, requestUser))
    case ClientError(status) =>
      if status == 403 && !IsStudent(requestUser, e) then Success(Refund([], NotNeeded))
      else Failure(HttpClientError(status))
    case OtherError => Failure(ServiceError)
    case Created(ids) =>
      if |ids| > 0 then
        match SendRefundNotification(inMicrosite, cfg, e, ids)
        case Success(mail) => Success(Refund(ids, Sent(mail)))
        case Failure(_) => Success(Refund(ids, SendFailed))
      else Success(Refund(ids, NotNeeded))
  }

  /** `handle_unenroll_done`: `requestUser` is the current request's user, if any. */
  function HandleUnenrollDone(configured: bool, enrollment: Option<Enrollment>, skipRefund: bool,
                              requestUser: Option<User>, post: User -> ServiceReply,
                              inMicrosite: bool, cfg: Config): (r: HandlerOutcome)
    ensures r.Attempted? <==> configured && !skipRefund && enrollment.Some? && enrollment.value.refundable
    ensures r.Attempted? ==> r.requester == requestUser.GetOr(enrollment.value.user)
    ensures r.Attempted? ==> r.outcome == RefundSeat(enrollment.value, Some(r.requester), post, inMicrosite, cfg)
  {
    if !configured || skipRefund then NoAttempt
    else if enrollment.Some? && enrollment.value.refundable then
      var requester := requestUser.GetOr(enrollment.value.user);
      Attempted(requester, RefundSeat(enrollment.value, Some(requester), post, inMicrosite, cfg))
    else NoAttempt
  }

  /** The handler authenticates as the requester when there is one, and as the student
      otherwise; a student unenrolling themselves is refused the 403 leniency. */
  lemma HandlerRequester(e: Enrollment, requestUser: Option<User>, post: User -> ServiceReply,
                         inMicrosite: bool, cfg: Config)
    requires e.refundable
    ensures requestUser.None? ==> HandleUnenrollDone(true, Some(e), false, requestUser, post, inMicrosite, cfg).requester == e.user
    ensures requestUser.Some? ==> HandleUnenrollDone(true, Some(e), false, requestUser, post, inMicrosite, cfg).requester == requestUser.value
    ensures requestUser.None? && post(e.user) == ClientError(403) ==>
      HandleUnenrollDone(true, Some(e), false, requestUser, post, inMicrosite, cfg).outcome == Failure(HttpClientError(403))
  {
  }

  /** What an attempted refund leaves behind, read off the service's reply to the requester:
      created refunds are kept, a 403 is excused only for someone other than the student,
      and every other reply ends as an error the handler swallows. */
  lemma HandlerOutcomeFollowsReply(e: Enrollment, requestUser: Option<User>, post: User -> ServiceReply,
                                   inMicrosite: bool, cfg: Config)
    requires e.refundable
    ensures var h := HandleUnenrollDone(true, Some(e), false, requestUser, post, inMicrosite, cfg);
      var reply := post(h.requester);
      && h.Attempted?
      && (reply.Created? ==> h.outcome.Success? && h.outcome.value.refundIds == reply.refundIds)
      && (h.outcome == Success(Refund([], NotNeeded)) <==>
            (reply.Created? && reply.refundIds == []) || (reply == ClientError(403) && h.requester.id != e.user.id))
      && (h.outcome.Failure? <==> reply.OtherError? || (reply.ClientError? && !(reply.status == 403 && h.requester.id != e.user.id)))
  {
  }

  /** The notification body starts with the message and has one line per refund, in order. */
  lemma NotificationLines(cfg: Config, e: Enrollment, ids: seq<nat>)
    ensures var mail := SendRefundNotification(false, cfg, e, ids).value;
      var lines := [Message(e.user)] + RefundUrls(cfg.apiUrl, ids);
      && |mail.textBody| == Text.SumLengths(lines) + 2 * (|ids| + 1)
      && mail.textBody[..|Message(e.user)| + 2] == Message(e.user) + CRLF
  {
    var lines := [Message(e.user)] + RefundUrls(cfg.apiUrl, ids);
    assert lines[1..] == RefundUrls(cfg.apiUrl, ids);
    assert Text.Terminated(CRLF, lines) == Message(e.user) + CRLF + Text.Terminated(CRLF, lines[1..]);
  }
}

=== FILE: grade_export.dfy ===
/** The grade export of `lms/djangoapps/custom_api/views.py`: the token check, the metadata
    read, the per-user grade record keyed by e-mail and course id, and the flattening of
    those records into fixed-width CSV rows. Grading, the user and course queries, and the
    order in which Python iterates a dict are inputs. */
module GradeExport {
  import opened Results

  /** The user fields the export reads. */
  datatype Account = Account(
    userId: nat, email: string, username: string, firstName: string, lastName: string,
    dateJoined: string, lastLogin: Option<string>)

  /** One editable metadata field: a dict with (normally) a `value` entry. */
  datatype FieldInfo = FieldInfo(entries: map<string, Option<string>>)

  /** A course: its id string and `editable_metadata_fields` (a field may be `None`). */
  datatype CourseRef = CourseRef(id: string, metadata: map<string, Option<FieldInfo>>)

  /** One `grade_breakdown` entry. */
  datatype Category = Category(category: string, percent: real)

  /** What grading returns for one user and course. */
  datatype GradeSummary = GradeSummary(percent: real, grade: Option<string>, breakdown: seq<Category>)

  /** A grade summary with the `course_display_name` added. */
  datatype CourseGrades = CourseGrades(summary: GradeSummary, displayName: string)

  /** `get_student_info`'s record; `grades` is keyed by `str(course.id)`. */
  datatype StudentInfo = StudentInfo(account: Account, grades: map<string, CourseGrades>)

  datatype ExportError = KeyError(key: string) | TypeError

  /** A CSV cell before `unicode()`: text, a number, an integer id, or `None`. */
  datatype Cell = Text(s: string) | Number(x: real) | Id(n: nat) | Nothing

  type Row = seq<Cell>

  datatype Response = Forbidden | Json(grades: map<string, StudentInfo>) | Csv(rows: seq<Row>)

  /** `has_valid_token`: the `token` query parameter, `""` when missing, must equal the
      configured token (which may be unset). */
  function HasValidToken(query: map<string, string>, configured: Option<string>): bool {
    Some(if "token" in query then query["token"] else "") == configured
  }

  /** An unset token admits nobody; a request without a token is admitted only when the
      configured token is empty; otherwise the parameter must match it exactly. */
  lemma TokenRule(query: map<string, string>, configured: Option<string>)
    ensures configured.None? ==> !HasValidToken(query, configured)
    ensures "token" !in query ==> (HasValidToken(query, configured) <==> configured == Some(""))
    ensures "token" in query ==> (HasValidToken(query, configured) <==> configured == Some(query["token"]))
  {
  }

  /** `get_metadata_field_value`: the field's `value` when neither is `None`, else the
      default; a missing field or a field dict without `value` raises. */
  function MetadataFieldValue(fields: map<string, Option<FieldInfo>>, name: string, default: string): (r: Result<string, ExportError>)
    ensures r.Failure? <==> name !in fields || (fields[name].Some? && "value" !in fields[name].value.entries)
    ensures r.Success? && fields[name].Some? && fields[name].value.entries["value"].Some? ==>
      r.value == fields[name].value.entries["value"].value
    ensures r.Success? && (fields[name].None? || fields[name].value.entries["value"].None?) ==> r.value == default
  {
    if name !in fields then Failure(KeyError(name))
    else match fields[name]
      case None => Success(default)
      case Some(f) =>
        if "value" !in f.entries then Failure(KeyError("value"))
        else Success(f.entries["value"].GetOr(default))
  }

  /** The course ids of the courses grading succeeded on. */
  function GradedIds(a: Account, courses: seq<CourseRef>, grade: (Account, CourseRef) -> Option<GradeSummary>): set<string>
    decreases |courses|
  {
    if |courses| == 0 then {}
    else
      var last := courses[|courses| - 1];
      GradedIds(a, courses[..|courses| - 1], grade) + (if grade(a, last).Some? then {last.id} else {})
  }

  /** An id is graded iff some course with that id could be graded. */
  lemma {:induction false} InGradedIds(a: Account, courses: seq<CourseRef>, grade: (Account, CourseRef) -> Option<GradeSummary>, id: string)
    ensures id in GradedIds(a, courses, grade) <==>
      exists i :: 0 <= i < |courses| && courses[i].id == id && grade(a, courses[i]).Some?
    decreases |courses|
  {
    if |courses| > 0 {
      var init := courses[..|courses| - 1];
      InGradedIds(a, init, grade, id);
      if exists i :: 0 <= i < |init| && init[i].id == id && grade(a, init[i]).Some? {
        var i :| 0 <= i < |init| && init[i].id == id && grade(a, init[i]).Some?;
        assert courses[i] == init[i];
      }
      if exists i :: 0 <= i < |courses| && courses[i].id == id && grade(a, courses[i]).Some? {
        var i :| 0 <= i < |courses| && courses[i].id == id && grade(a, courses[i]).Some?;
        if i < |init| {
          assert init[i] == courses[i];
        }
      }
    }
  }

  /** `get_student_info`'s loop as written: a course grading fails on (`grades_for_student`
      returns `None` after logging) makes the assignment into `None` raise `TypeError`. */
  function StudentGradesAsWritten(a: Account, courses: seq<CourseRef>, grade: (Account, CourseRef) -> Option<GradeSummary>): (r: Result<map<string, CourseGrades>, ExportError>)
    ensures r.Success? ==> forall i :: 0 <= i < |courses| ==> grade(a, courses[i]).Some?
    decreases |courses|
  {
    if |courses| == 0 then Success(map[])
    else
      var last := courses[|courses| - 1];
      var acc :- StudentGradesAsWritten(a, courses[..|courses| - 1], grade);
      var g := grade(a, last);
      var name :- MetadataFieldValue(last.metadata, "display_name", "");
      if g.None? then Failure(TypeError)
      else Success(acc[last.id := CourseGrades(g.value, name)])
  }

  /** Course `i` was graded and no later course with the same id was: its entry is the one
      the loop leaves in the dict. */
  predicate LastGraded(a: Account, courses: seq<CourseRef>, grade: (Account, CourseRef) -> Option<GradeSummary>, i: nat)
    requires i < |courses|
  {
    && grade(a, courses[i]).Some?
    && forall j :: i < j < |courses| && courses[j].id == courses[i].id ==> grade(a, courses[j]).None?
  }

  /** `get_student_info`'s loop as evidently intended: a course that could not be graded is
      skipped, as the logging comment ("keep marching on") says. A later course with the same
      id string replaces an earlier one. */
  function StudentGrades(a: Account, courses: seq<CourseRef>, grade: (Account, CourseRef) -> Option<GradeSummary>): (r: Result<map<string, CourseGrades>, ExportError>)
    ensures r.Success? ==> r.value.Keys == GradedIds(a, courses, grade)
    ensures r.Success? ==> forall id :: id in r.value ==> exists i :: 0 <= i < |courses| && courses[i].id == id && grade(a, courses[i]) == Some(r.value[id].summary)
    ensures r.Success? ==> forall i :: 0 <= i < |courses| && LastGraded(a, courses, grade, i) ==>
      && courses[i].id in r.value
      && MetadataFieldValue(courses[i].metadata, "display_name", "").Success?
      && r.value[courses[i].id] == CourseGrades(grade(a, courses[i]).value, MetadataFieldValue(courses[i].metadata, "display_name", "").value)
    ensures r.Failure? ==> r.error.KeyError?
    ensures (forall i :: 0 <= i < |courses| ==> "display_name" in courses[i].metadata && (courses[i].metadata["display_name"].Some? ==> "value" in courses[i].metadata["display_name"].value.entries)) ==> r.Success?
    decreases |courses|
  {
    if |courses| == 0 then Success(map[])
    else
      var init := courses[..|courses| - 1];
      var last := courses[|courses| - 1];
      var acc :- StudentGrades(a, init, grade);
      match grade(a, last)
      case None =>
        LastGradedStep(a, courses, grade, acc, acc);
        Success(acc)
      case Some(g) =>
        var name :- MetadataFieldValue(last.metadata, "display_name", "");
        var m := acc[last.id := CourseGrades(g, name)];
        LastGradedStep(a, courses, grade, acc, m);
        Success(m)
  }

  /** Grading one more course keeps, under every id, the entry of the last course with that
      id that was graded. */
  lemma LastGradedStep(a: Account, courses: seq<CourseRef>, grade: (Account, CourseRef) -> Option<GradeSummary>,
                       acc: map<string, CourseGrades>, m: map<string, CourseGrades>)
    requires |courses| > 0
    requires var init := courses[..|courses| - 1];
      forall i :: 0 <= i < |init| && LastGraded(a, init, grade, i) ==>
        && init[i].id in acc
        && MetadataFieldValue(init[i].metadata, "display_name", "").Success?
        && acc[init[i].id] == CourseGrades(grade(a, init[i]).value, MetadataFieldValue(init[i].metadata, "display_name", "").value)
    requires var last := courses[|courses| - 1];
      grade(a, last).None? ==> m == acc
    requires var last := courses[|courses| - 1];
      grade(a, last).Some? ==>
        && MetadataFieldValue(last.metadata, "display_name", "").Success?
        && m == acc[last.id := CourseGrades(grade(a, last).value, MetadataFieldValue(last.metadata, "display_name", "").value)]
    ensures forall i :: 0 <= i < |courses| && LastGraded(a, courses, grade, i) ==>
      && courses[i].id in m
      && MetadataFieldValue(courses[i].metadata, "display_name", "").Success?
      && m[courses[i].id] == CourseGrades(grade(a, courses[i]).value, MetadataFieldValue(courses[i].metadata, "display_name", "").value)
  {
    var init := courses[..|courses| - 1];
    var last := courses[|courses| - 1];
    forall i | 0 <= i < |courses| && LastGraded(a, courses, grade, i)
      ensures courses[i].id in m
      ensures MetadataFieldValue(courses[i].metadata, "display_name", "").Success?
      ensures m[courses[i].id] == CourseGrades(grade(a, courses[i]).value, MetadataFieldValue(courses[i].metadata, "display_name", "").value)
    {
      if i < |init| {
        var c := init[i];
        assert courses[i] == c;
        assert LastGraded(a, init, grade, i) by {
          forall j | i < j < |init| && init[j].id == c.id
            ensures grade(a, init[j]).None?
          {
            assert init[j] == courses[j];
          }
        }
        assert grade(a, last).Some? ==> last.id != c.id by {
          assert courses[|courses| - 1] == last;
        }
      } else {
        assert courses[i] == last;
      }
    }
  }

  /** One course grading fails on is enough: as written the whole export raises, while
      the corrected loop skips the course. */
  lemma UngradableCourseExample(a: Account, grade: (Account, CourseRef) -> Option<GradeSummary>)
    requires grade(a, CourseRef("course-v1:org+c+run", map["display_name" := None])) == None
    ensures StudentGradesAsWritten(a, [CourseRef("course-v1:org+c+run", map["display_name" := None])], grade) == Failure(TypeError)
    ensures StudentGrades(a, [CourseRef("course-v1:org+c+run", map["display_name" := None])], grade) == Success(map[])
  {
    var cs := [CourseRef("course-v1:org+c+run", map["display_name" := None])];
    assert cs[..0] == [];
  }

  /** `get_student_info`. */
  function StudentInfoOf(a: Account, courses: seq<CourseRef>, grade: (Account, CourseRef) -> Option<GradeSummary>): Result<StudentInfo, ExportError> {
    var g :- StudentGrades(a, courses, grade);
    Success(StudentInfo(a, g))
  }

  /** The record `get_student_info` builds for a user whose courses' metadata can be read:
      the account and its grades (empty when the metadata read fails). */
  function RecordOf(a: Account, courses: seq<CourseRef>, grade: (Account, CourseRef) -> Option<GradeSummary>): StudentInfo {
    StudentInfo(a, match StudentGrades(a, courses, grade) case Success(g) => g case Failure(_) => map[])
  }

  /** Every course's display-name metadata of `a` can be read, so `get_student_info` returns. */
  predicate Gradable(a: Account, courses: seq<CourseRef>, grade: (Account, CourseRef) -> Option<GradeSummary>) {
    StudentGrades(a, courses, grade).Success?
  }

  /** No later account has the same e-mail as account `i`. */
  predicate LastWithEmail(accounts: seq<Account>, i: nat)
    requires i < |accounts|
  {
    forall j :: i < j < |accounts| ==> accounts[j].email != accounts[i].email
  }

  /** `m` is keyed by exactly the accounts' e-mails, and under each e-mail holds `f` of the
      last account with that e-mail. */
  predicate KeyedByLast<V(==)>(accounts: seq<Account>, f: Account -> V, m: map<string, V>) {
    && m.Keys == (set i | 0 <= i < |accounts| :: accounts[i].email)
    && forall i :: 0 <= i < |accounts| && LastWithEmail(accounts, i) ==> m[accounts[i].email] == f(accounts[i])
  }

  /** The e-mails of a sequence of accounts are those of all but the last, plus the last's. */
  lemma EmailsStep(accounts: seq<Account>)
    requires |accounts| > 0
    ensures var init := accounts[..|accounts| - 1];
      (set i | 0 <= i < |accounts| :: accounts[i].email)
        == (set i | 0 <= i < |init| :: init[i].email) + {accounts[|accounts| - 1].email}
  {
    var init := accounts[..|accounts| - 1];
    var later := (set i | 0 <= i < |init| :: init[i].email) + {accounts[|accounts| - 1].email};
    forall i | 0 <= i < |accounts|
      ensures accounts[i].email in later
    {
      if i < |init| {
        assert init[i].email == accounts[i].email;
      }
    }
    forall i | 0 <= i < |init|
      ensures init[i].email in (set k | 0 <= k < |accounts| :: accounts[k].email)
    {
      assert accounts[i].email == init[i].email;
    }
  }

  /** Storing one more account's value under its e-mail keeps the map keyed by the last
      account with each e-mail. */
  lemma KeyedByLastStep<V>(accounts: seq<Account>, f: Account -> V, acc: map<string, V>)
    requires |accounts| > 0
    requires KeyedByLast(accounts[..|accounts| - 1], f, acc)
    ensures KeyedByLast(accounts, f, acc[accounts[|accounts| - 1].email := f(accounts[|accounts| - 1])])
  {
    var init := accounts[..|accounts| - 1];
    var last := accounts[|accounts| - 1];
    var m := acc[last.email := f(last)];
    EmailsStep(accounts);
    forall i | 0 <= i < |accounts| && LastWithEmail(accounts, i)
      ensures accounts[i].email in m && m[accounts[i].email] == f(accounts[i])
    {
      if i < |init| {
        var a := init[i];
        assert accounts[i] == a;
        assert a.email != last.email by {
          assert accounts[|accounts| - 1] == last;
        }
        assert LastWithEmail(init, i) by {
          forall j | i < j < |init|
            ensures init[j].email != a.email
          {
            assert init[j] == accounts[j];
          }
        }
        assert a.email in acc.Keys;
        assert acc[a.email] == f(a);
        assert m[a.email] == acc[a.email];
      } else {
        assert accounts[i] == last;
      }
    }
  }

  /** The record `get_student_info` returns is the user's `RecordOf`. */
  lemma InfoIsRecord(a: Account, courses: seq<CourseRef>, grade: (Account, CourseRef) -> Option<GradeSummary>)
    requires StudentInfoOf(a, courses, grade).Success?
    ensures Gradable(a, courses, grade)
    ensures StudentInfoOf(a, courses, grade).value == RecordOf(a, courses, grade)
  {
  }

  /** Appending a gradable account keeps every account gradable. */
  lemma GradableStep(accounts: seq<Account>, courses: seq<CourseRef>, grade: (Account, CourseRef) -> Option<GradeSummary>)
    requires |accounts| > 0
    requires var init := accounts[..|accounts| - 1]; forall i :: 0 <= i < |init| ==> Gradable(init[i], courses, grade)
    requires Gradable(accounts[|accounts| - 1], courses, grade)
    ensures forall i :: 0 <= i < |accounts| ==> Gradable(accounts[i], courses, grade)
  {
    var init := accounts[..|accounts| - 1];
    assert forall i :: 0 <= i < |init| ==> init[i] == accounts[i];
  }

  /** Storing one more account's record extends the records built from the accounts
      before it. */
  lemma RecordsStep(accounts: seq<Account>, courses: seq<CourseRef>, grade: (Account, CourseRef) -> Option<GradeSummary>, acc: map<string, StudentInfo>)
    requires |accounts| > 0
    requires var init := accounts[..|accounts| - 1];
      && acc.Keys == (set i | 0 <= i < |init| :: init[i].email)
      && forall i :: 0 <= i < |init| && LastWithEmail(init, i) ==> acc[init[i].email] == RecordOf(init[i], courses, grade)
    ensures var last := accounts[|accounts| - 1];
      var m := acc[last.email := RecordOf(last, courses, grade)];
      && m.Keys == (set i | 0 <= i < |accounts| :: accounts[i].email)
      && forall i :: 0 <= i < |accounts| && LastWithEmail(accounts, i) ==>
        m[accounts[i].email] == RecordOf(accounts[i], courses, grade)
  {
    var f := (a: Account) => RecordOf(a, courses, grade);
    KeyedByLastStep(accounts, f, acc);
  }

  /** `all_user_grades`: every user's record keyed by e-mail; a later user with the same
      e-mail replaces an earlier one. */
  function AllUserGrades(accounts: seq<Account>, courses: seq<CourseRef>, grade: (Account, CourseRef) -> Option<GradeSummary>): (r: Result<map<string, StudentInfo>, ExportError>)
    ensures r.Success? <==> forall i :: 0 <= i < |accounts| ==> Gradable(accounts[i], courses, grade)
    ensures r.Failure? ==> r.error.KeyError?
    ensures r.Success? ==> r.value.Keys == set i | 0 <= i < |accounts| :: accounts[i].email
    ensures r.Success? ==> forall i :: 0 <= i < |accounts| && LastWithEmail(accounts, i) ==>
      r.value[accounts[i].email] == RecordOf(accounts[i], courses, grade)
    decreases |accounts|
  {
    if |accounts| == 0 then Success(map[])
    else
      var init := accounts[..|accounts| - 1];
      var last := accounts[|accounts| - 1];
      match AllUserGrades(init, courses, grade)
      case Failure(err) =>
        var i :| 0 <= i < |init| && !Gradable(init[i], courses, grade);
        assert accounts[i] == init[i];
        Failure(err)
      case Success(acc) =>
        match StudentInfoOf(last, courses, grade)
        case Failure(err) =>
          assert !Gradable(accounts[|accounts| - 1], courses, grade);
          Failure(err)
        case Success(info) =>
          InfoIsRecord(last, courses, grade);
          GradableStep(accounts, courses, grade);
          RecordsStep(accounts, courses, grade, acc);
          Success(acc[last.email := info])
  }

  // ---------------------------------------------------------------------------
  // CSV flattening
  // ---------------------------------------------------------------------------

  const Header: Row := [
    Text("user_id"), Text("email"), Text("username"), Text("first_name"), Text("last_name"),
    Text("date_joined"), Text("last_login"), Text("course_id"), Text("course_display_name"),
    Text("total_percent"), Text("grade"), Text("section_category"), Text("section_percent")]

  /** `[student_info[key] for key in user_keys]`. */
  function UserCells(a: Account): (r: Row)
    ensures |r| == 7
  {
    [Id(a.userId), Text(a.email), Text(a.username), Text(a.firstName), Text(a.lastName),
     Text(a.dateJoined), if a.lastLogin.Some? then Text(a.lastLogin.value) else Nothing]
  }

  /** `course_grades['grade'] or ""`. */
  function GradeCell(g: Option<string>): Cell {
    if g.None? || g.value == "" then Text("") else Text(g.value)
  }

  /** One data row: the user's seven fields, then the course and the category. */
  function DataRow(a: Account, courseId: string, cg: CourseGrades, cat: Category): (r: Row)
    ensures |r| == |Header|
    ensures r[..7] == UserCells(a)
    ensures r[7] == Text(courseId) && r[11] == Text(cat.category) && r[12] == Number(cat.percent)
    ensures r[8] == Text(cg.displayName) && r[9] == Number(cg.summary.percent)
    ensures (cg.summary.grade.None? || cg.summary.grade == Some("")) ==> r[10] == Text("")
    ensures cg.summary.grade.Some? && cg.summary.grade.value != "" ==> r[10] == Text(cg.summary.grade.value)
  {
    UserCells(a) + [Text(courseId), Text(cg.displayName), Number(cg.summary.percent),
                    GradeCell(cg.summary.grade), Text(cat.category), Number(cat.percent)]
  }

  /** Concatenation of a sequence of sequences. */
  function Flatten<T>(xss: seq<seq<T>>): seq<T>
    decreases |xss|
  {
    if |xss| == 0 then [] else xss[0] + Flatten(xss[1..])
  }

  /** An element of a concatenation comes from one of the parts, and every part's elements
      are in the concatenation. */
  lemma {:induction false} InFlatten<T>(xss: seq<seq<T>>, x: T)
    ensures x in Flatten(xss) <==> exists i :: 0 <= i < |xss| && x in xss[i]
    decreases |xss|
  {
    if |xss| > 0 {
      InFlatten(xss[1..], x);
      if x in Flatten(xss[1..]) {
        var i :| 0 <= i < |xss[1..]| && x in xss[1..][i];
        assert x in xss[i + 1];
      }
      if exists i :: 0 <= i < |xss| && x in xss[i] {
        var i :| 0 <= i < |xss| && x in xss[i];
        if i > 0 {
          assert x in xss[1..][i - 1];
        }
      }
    }
  }

  function TotalLength<T>(xss: seq<seq<T>>): nat
    decreases |xss|
  {
    if |xss| == 0 then 0 else |xss[0]| + TotalLength(xss[1..])
  }

  lemma {:induction false} FlattenLength<T>(xss: seq<seq<T>>)
    ensures |Flatten(xss)| == TotalLength(xss)
    decreases |xss|
  {
    if |xss| > 0 {
      FlattenLength(xss[1..]);
    }
  }

  /** Every element of every part has width 13. */
  lemma {:induction false} FlattenKeepsWidth(xss: seq<seq<Row>>)
    requires forall i, j :: 0 <= i < |xss| && 0 <= j < |xss[i]| ==> |xss[i][j]| == 13
    ensures forall k :: 0 <= k < |Flatten(xss)| ==> |Flatten(xss)[k]| == 13
    decreases |xss|
  {
    if |xss| > 0 {
      FlattenKeepsWidth(xss[1..]);
    }
  }

  /** The rows of one course: one per breakdown category. */
  function CourseRows(a: Account, courseId: string, cg: CourseGrades): (r: seq<Row>)
    ensures |r| == |cg.summary.breakdown|
    ensures forall k :: 0 <= k < |r| ==> r[k] == DataRow(a, courseId, cg, cg.summary.breakdown[k])
  {
    seq(|cg.summary.breakdown|, k requires 0 <= k < |cg.summary.breakdown| => DataRow(a, courseId, cg, cg.summary.breakdown[k]))
  }

  /** `xs` enumerates `keys`, each exactly once: how a dict's keys are iterated. */
  predicate Lists(xs: seq<string>, keys: set<string>) {
    && (forall i, j :: 0 <= i < j < |xs| ==> xs[i] != xs[j])
    && (forall i :: 0 <= i < |xs| ==> xs[i] in keys)
    && (forall k :: k in keys ==> k in xs)
  }

  /** `courseIds[e]` is the iteration order of user `e`'s own `student_grades` dict. */
  predicate ListsCourses(all: map<string, StudentInfo>, courseIds: map<string, seq<string>>) {
    forall e :: e in all ==> e in courseIds && Lists(courseIds[e], all[e].grades.Keys)
  }

  /** The per-course row groups of one user, in the iteration order `ids` of their
      course-id dict. */
  function StudentRowGroups(info: StudentInfo, ids: seq<string>): (r: seq<seq<Row>>)
    ensures |r| == |ids|
  {
    seq(|ids|, j requires 0 <= j < |ids| =>
      if ids[j] in info.grades then CourseRows(info.account, ids[j], info.grades[ids[j]]) else [])
  }

  /** The per-user row groups in the iteration order `emails` of the e-mail dict. */
  function RowGroups(all: map<string, StudentInfo>, emails: seq<string>, courseIds: map<string, seq<string>>): (r: seq<seq<Row>>)
    requires forall i :: 0 <= i < |emails| ==> emails[i] in all && emails[i] in courseIds
    ensures |r| == |emails|
  {
    seq(|emails|, i requires 0 <= i < |emails| => Flatten(StudentRowGroups(all[emails[i]], courseIds[emails[i]])))
  }

  /** The CSV output of `all_grades`: the header, then the nested loops' rows. */
  function CsvRows(all: map<string, StudentInfo>, emails: seq<string>, courseIds: map<string, seq<string>>): (r: seq<Row>)
    requires Lists(emails, all.Keys)
    requires ListsCourses(all, courseIds)
    ensures |r| >= 1 && r[0] == Header
  {
    [Header] + Flatten(RowGroups(all, emails, courseIds))
  }

  /** The number of categories the nested loops visit. */
  function CategoryCount(all: map<string, StudentInfo>, emails: seq<string>, courseIds: map<string, seq<string>>): nat
    requires forall i :: 0 <= i < |emails| ==> emails[i] in all && emails[i] in courseIds
    decreases |emails|
  {
    if |emails| == 0 then 0
    else CoursesCategoryCount(all[emails[0]], courseIds[emails[0]]) + CategoryCount(all, emails[1..], courseIds)
  }

  function CoursesCategoryCount(info: StudentInfo, ids: seq<string>): nat
    decreases |ids|
  {
    if |ids| == 0 then 0
    else
      (if ids[0] in info.grades then |info.grades[ids[0]].summary.breakdown| else 0)
      + CoursesCategoryCount(info, ids[1..])
  }

  lemma {:induction false} StudentRowCount(info: StudentInfo, ids: seq<string>)
    ensures TotalLength(StudentRowGroups(info, ids)) == CoursesCategoryCount(info, ids)
    decreases |ids|
  {
    if |ids| > 0 {
      assert StudentRowGroups(info, ids)[1..] == StudentRowGroups(info, ids[1..]);
      StudentRowCount(info, ids[1..]);
    }
  }

  lemma {:induction false} RowGroupsCount(all: map<string, StudentInfo>, emails: seq<string>, courseIds: map<string, seq<string>>)
    requires forall i :: 0 <= i < |emails| ==> emails[i] in all && emails[i] in courseIds
    ensures TotalLength(RowGroups(all, emails, courseIds)) == CategoryCount(all, emails, courseIds)
    decreases |emails|
  {
    if |emails| > 0 {
      assert RowGroups(all, emails, courseIds)[1..] == RowGroups(all, emails[1..], courseIds);
      RowGroupsCount(all, emails[1..], courseIds);
      FlattenLength(StudentRowGroups(all[emails[0]], courseIds[emails[0]]));
      StudentRowCount(all[emails[0]], courseIds[emails[0]]);
    }
  }

  // ---------------------------------------------------------------------------
  // Slots: the (user, course, category) positions of the records
  // ---------------------------------------------------------------------------

  /** A position in the records: a user's e-mail, one of their course ids, and an index
      into that course's `grade_breakdown`. */
  datatype Slot = Slot(email: string, courseId: string, index: nat)

  /** Every (user, course, category) position of the records, independent of any order. */
  ghost function Slots(all: map<string, StudentInfo>): set<Slot> {
    set e, c, k | e in all && c in all[e].grades && 0 <= k < |all[e].grades[c].summary.breakdown| :: Slot(e, c, k)
  }

  /** The positions of one user's record. */
  ghost function RecordSlots(e: string, info: StudentInfo): set<Slot> {
    set c, k | c in info.grades && 0 <= k < |info.grades[c].summary.breakdown| :: Slot(e, c, k)
  }

  /** The positions of one course of one user's record. */
  ghost function CourseSlots(e: string, info: StudentInfo, c: string): set<Slot> {
    if c in info.grades then set k | 0 <= k < |info.grades[c].summary.breakdown| :: Slot(e, c, k) else {}
  }

  /** The positions of the courses `ids` of one user's record. */
  ghost function UserSlotsOver(e: string, info: StudentInfo, ids: seq<string>): set<Slot>
    decreases |ids|
  {
    if |ids| == 0 then {} else CourseSlots(e, info, ids[0]) + UserSlotsOver(e, info, ids[1..])
  }

  /** The positions of the records of the users `emails`. */
  ghost function SlotsOver(all: map<string, StudentInfo>, emails: seq<string>): set<Slot>
    requires forall i :: 0 <= i < |emails| ==> emails[i] in all
    decreases |emails|
  {
    if |emails| == 0 then {} else RecordSlots(emails[0], all[emails[0]]) + SlotsOver(all, emails[1..])
  }

  lemma {:induction false} IndexSlotsCount(e: string, c: string, n: nat)
    ensures |set k | 0 <= k < n :: Slot(e, c, k)| == n
    decreases n
  {
    if n > 0 {
      IndexSlotsCount(e, c, n - 1);
      assert (set k | 0 <= k < n :: Slot(e, c, k)) == (set k | 0 <= k < n - 1 :: Slot(e, c, k)) + {Slot(e, c, n - 1)};
    }
  }

  lemma RecordSlotsMembers(e: string, info: StudentInfo, s: Slot)
    ensures s in RecordSlots(e, info) <==>
      s.email == e && s.courseId in info.grades && s.index < |info.grades[s.courseId].summary.breakdown|
  {
    if s.email == e && s.courseId in info.grades && s.index < |info.grades[s.courseId].summary.breakdown| {
      assert s == Slot(e, s.courseId, s.index);
    }
  }

  lemma {:induction false} UserSlotsMembers(e: string, info: StudentInfo, ids: seq<string>, s: Slot)
    ensures s in UserSlotsOver(e, info, ids) <==>
      s.email == e && s.courseId in ids && s.courseId in info.grades
      && s.index < |info.grades[s.courseId].summary.breakdown|
    decreases |ids|
  {
    if |ids| > 0 {
      UserSlotsMembers(e, info, ids[1..], s);
      if s.email == e && s.courseId == ids[0] && s.courseId in info.grades
         && s.index < |info.grades[s.courseId].summary.breakdown| {
        assert s == Slot(e, ids[0], s.index);
      }
      assert s.courseId in ids <==> s.courseId == ids[0] || s.courseId in ids[1..];
    }
  }

  /** Distinct course ids contribute disjoint positions, so the positions of a user's
      listed courses number the categories visited. */
  lemma {:induction false} UserSlotsCount(e: string, info: StudentInfo, ids: seq<string>)
    requires forall i, j :: 0 <= i < j < |ids| ==> ids[i] != ids[j]
    ensures |UserSlotsOver(e, info, ids)| == CoursesCategoryCount(info, ids)
    decreases |ids|
  {
    if |ids| > 0 {
      UserSlotsCount(e, info, ids[1..]);
      var here := CourseSlots(e, info, ids[0]);
      var rest := UserSlotsOver(e, info, ids[1..]);
      if ids[0] in info.grades {
        IndexSlotsCount(e, ids[0], |info.grades[ids[0]].summary.breakdown|);
      }
      forall s | s in rest ensures s.courseId != ids[0] {
        UserSlotsMembers(e, info, ids[1..], s);
        var j :| 0 <= j < |ids[1..]| && ids[1..][j] == s.courseId;
        assert ids[j + 1] != ids[0];
      }
      forall s | s in here ensures s.courseId == ids[0] {
      }
      assert here * rest == {};
    }
  }

  lemma {:induction false} SlotsOverMembers(all: map<string, StudentInfo>, emails: seq<string>, s: Slot)
    requires forall i :: 0 <= i < |emails| ==> emails[i] in all
    ensures s in SlotsOver(all, emails) <==> s.email in emails && s in RecordSlots(s.email, all[s.email])
    decreases |emails|
  {
    if |emails| > 0 {
      SlotsOverMembers(all, emails[1..], s);
      RecordSlotsMembers(emails[0], all[emails[0]], s);
      assert s.email in emails <==> s.email == emails[0] || s.email in emails[1..];
    }
  }

  lemma {:induction false} SlotsOverCount(all: map<string, StudentInfo>, emails: seq<string>, courseIds: map<string, seq<string>>)
    requires forall i, j :: 0 <= i < j < |emails| ==> emails[i] != emails[j]
    requires forall i :: 0 <= i < |emails| ==> emails[i] in all
    requires ListsCourses(all, courseIds)
    ensures |SlotsOver(all, emails)| == CategoryCount(all, emails, courseIds)
    decreases |emails|
  {
    if |emails| > 0 {
      var e := emails[0];
      SlotsOverCount(all, emails[1..], courseIds);
      var ids := courseIds[e];
      UserSlotsCount(e, all[e], ids);
      forall s ensures s in UserSlotsOver(e, all[e], ids) <==> s in RecordSlots(e, all[e]) {
        UserSlotsMembers(e, all[e], ids, s);
        RecordSlotsMembers(e, all[e], s);
      }
      assert UserSlotsOver(e, all[e], ids) == RecordSlots(e, all[e]);
      var rest := SlotsOver(all, emails[1..]);
      forall s | s in rest ensures s.email != e {
        SlotsOverMembers(all, emails[1..], s);
        var j :| 0 <= j < |emails[1..]| && emails[1..][j] == s.email;
        assert emails[j + 1] != emails[0];
      }
      forall s | s in RecordSlots(e, all[e]) ensures s.email == e {
        RecordSlotsMembers(e, all[e], s);
      }
      assert RecordSlots(e, all[e]) * rest == {};
    }
  }

  /** Listing every e-mail once, the positions over the listing are all the positions. */
  lemma SlotsOverAll(all: map<string, StudentInfo>, emails: seq<string>)
    requires Lists(emails, all.Keys)
    ensures SlotsOver(all, emails) == Slots(all)
  {
    forall s ensures s in SlotsOver(all, emails) <==> s in Slots(all) {
      SlotsOverMembers(all, emails, s);
      RecordSlotsMembers(s.email, if s.email in all then all[s.email] else StudentInfo(Account(0, "", "", "", "", "", None), map[]), s);
      if s.email in all && s in RecordSlots(s.email, all[s.email]) {
        assert s == Slot(s.email, s.courseId, s.index);
      }
    }
  }

  /** The CSV has the header and then exactly one row per (user, course, category)
      position of the records; every row has 13 cells. */
  lemma CsvShape(all: map<string, StudentInfo>, emails: seq<string>, courseIds: map<string, seq<string>>)
    requires Lists(emails, all.Keys)
    requires ListsCourses(all, courseIds)
    ensures |CsvRows(all, emails, courseIds)| == 1 + |Slots(all)|
    ensures forall k :: 0 <= k < |CsvRows(all, emails, courseIds)| ==> |CsvRows(all, emails, courseIds)[k]| == 13
  {
    var groups := RowGroups(all, emails, courseIds);
    FlattenLength(groups);
    RowGroupsCount(all, emails, courseIds);
    SlotsOverCount(all, emails, courseIds);
    SlotsOverAll(all, emails);
    forall i | 0 <= i < |emails|
      ensures forall j :: 0 <= j < |groups[i]| ==> |groups[i][j]| == 13
    {
      FlattenKeepsWidth(StudentRowGroups(all[emails[i]], courseIds[emails[i]]));
    }
    FlattenKeepsWidth(groups);
  }

  /** The data row of the category at `k` of course `c` in user `e`'s record. */
  predicate IsTripleRow(all: map<string, StudentInfo>, row: Row, e: string, c: string, k: int) {
    e in all && c in all[e].grades && 0 <= k < |all[e].grades[c].summary.breakdown|
    && row == DataRow(all[e].account, c, all[e].grades[c], all[e].grades[c].summary.breakdown[k])
  }

  /** Every (user, course, category) of the records has its row, and every data row is the
      row of such a triple. */
  lemma CsvRowsAreTheTriples(all: map<string, StudentInfo>, emails: seq<string>, courseIds: map<string, seq<string>>, row: Row)
    requires Lists(emails, all.Keys)
    requires ListsCourses(all, courseIds)
    ensures row in CsvRows(all, emails, courseIds)[1..] <==> exists e, c, k :: IsTripleRow(all, row, e, c, k)
  {
    var groups := RowGroups(all, emails, courseIds);
    assert CsvRows(all, emails, courseIds)[1..] == Flatten(groups);
    InFlatten(groups, row);
    if row in Flatten(groups) {
      RowsComeFromTriples(all, emails, courseIds, row);
    }
    if exists e, c, k :: IsTripleRow(all, row, e, c, k) {
      var e, c, k :| IsTripleRow(all, row, e, c, k);
      TriplesHaveRows(all, emails, courseIds, row, e, c, k);
    }
  }

  lemma RowsComeFromTriples(all: map<string, StudentInfo>, emails: seq<string>, courseIds: map<string, seq<string>>, row: Row)
    requires Lists(emails, all.Keys)
    requires ListsCourses(all, courseIds)
    requires row in Flatten(RowGroups(all, emails, courseIds))
    ensures exists e, c, k :: IsTripleRow(all, row, e, c, k)
  {
    var groups := RowGroups(all, emails, courseIds);
    InFlatten(groups, row);
    var i :| 0 <= i < |groups| && row in groups[i];
    var e := emails[i];
    var inner := StudentRowGroups(all[e], courseIds[e]);
    InFlatten(inner, row);
    var j :| 0 <= j < |inner| && row in inner[j];
    var c := courseIds[e][j];
    var k :| 0 <= k < |inner[j]| && inner[j][k] == row;
    assert IsTripleRow(all, row, e, c, k);
  }

  lemma TriplesHaveRows(all: map<string, StudentInfo>, emails: seq<string>, courseIds: map<string, seq<string>>, row: Row,
                        e: string, c: string, k: int)
    requires Lists(emails, all.Keys)
    requires ListsCourses(all, courseIds)
    requires IsTripleRow(all, row, e, c, k)
    ensures row in Flatten(RowGroups(all, emails, courseIds))
  {
    var groups := RowGroups(all, emails, courseIds);
    var i :| 0 <= i < |emails| && emails[i] == e;
    var ids := courseIds[e];
    var j :| 0 <= j < |ids| && ids[j] == c;
    var inner := StudentRowGroups(all[e], ids);
    assert row == inner[j][k];
    InFlatten(inner, row);
    assert row in groups[i];
    InFlatten(groups, row);
  }

  /** `all_grades`: forbidden without the token; otherwise the records as JSON, or as CSV
      rows in the given dict iteration orders. */
  function AllGrades(query: map<string, string>, configured: Option<string>, wantsJson: bool,
                     accounts: seq<Account>, courses: seq<CourseRef>,
                     grade: (Account, CourseRef) -> Option<GradeSummary>,
                     emails: seq<string>, courseIds: map<string, seq<string>>): (r: Result<Response, ExportError>)
    requires var all := AllUserGrades(accounts, courses, grade);
      all.Success? ==> Lists(emails, all.value.Keys) && ListsCourses(all.value, courseIds)
    ensures !HasValidToken(query, configured) ==> r == Success(Forbidden)
    ensures r.Failure? <==> HasValidToken(query, configured) && AllUserGrades(accounts, courses, grade).Failure?
    ensures HasValidToken(query, configured) && r.Success? ==> (r.value.Json? <==> wantsJson) && !r.value.Forbidden?
    ensures r.Success? && r.value.Json? ==> r.value.grades == AllUserGrades(accounts, courses, grade).value
    ensures r.Success? && r.value.Json? ==> r.value.grades.Keys == set i | 0 <= i < |accounts| :: accounts[i].email
    ensures r.Success? && r.value.Csv? ==> r.value.rows == CsvRows(AllUserGrades(accounts, courses, grade).value, emails, courseIds)
    ensures r.Success? && r.value.Csv? ==>
      && |r.value.rows| == 1 + |Slots(AllUserGrades(accounts, courses, grade).value)|
      && r.value.rows[0] == Header
  {
    if !HasValidToken(query, configured) then Success(Forbidden)
    else
      var all :- AllUserGrades(accounts, courses, grade);
      if wantsJson then Success(Json(all))
      else
        CsvShape(all, emails, courseIds);
        Success(Csv(CsvRows(all, emails, courseIds)))
  }
}

=== FILE: randomize.dfy ===
/** Child selection of the randomize content block (`RandomizeModule` in
    `common/lib/xmodule/xmodule/randomize_module.py`): sticky stored choices, reset when
    stale, a fresh sample of distinct child indices when grades are available, and the
    chosen children's grading view. The random source is a stream of draws and the number
    of questions is an input. */
module Randomize {
  import opened Results

  /** `random.sample` refuses a sample larger than its population. */
  datatype SampleError = SampleLargerThanPopulation

  /** The block's state after construction: `choices` and `child_descriptor`. */
  datatype Selection<C> = Selection(choices: Option<seq<nat>>, childDescriptor: Option<seq<C>>)

  predicate Distinct(s: seq<nat>) {
    forall i, j :: 0 <= i < j < |s| ==> s[i] != s[j]
  }

  /** `range(0, n)`. */
  function Range(n: nat): (r: seq<nat>)
    ensures |r| == n
    ensures forall i :: 0 <= i < n ==> r[i] == i
  {
    seq(n, i => i)
  }

  /** `pool` with position `idx` removed. */
  function RemoveAt(pool: seq<nat>, idx: nat): (r: seq<nat>)
    requires idx < |pool|
    ensures |r| == |pool| - 1
    ensures forall x :: x in r ==> x in pool
    ensures Distinct(pool) ==> Distinct(r) && pool[idx] !in r
  {
    var r := pool[..idx] + pool[idx + 1..];
    assert forall i :: 0 <= i < |r| ==> r[i] == (if i < idx then pool[i] else pool[i + 1]);
    r
  }

  /** Selection without replacement: each draw picks one of the remaining elements. */
  function SampleFrom(pool: seq<nat>, k: nat, draws: seq<nat>): (r: seq<nat>)
    requires k <= |pool|
    ensures |r| == k
    ensures forall x :: x in r ==> x in pool
    ensures Distinct(pool) ==> Distinct(r)
    decreases k
  {
    if k == 0 then []
    else
      var d := if |draws| > 0 then draws[0] else 0;
      var idx := d % |pool|;
      var rest := RemoveAt(pool, idx);
      var tail := SampleFrom(rest, k - 1, if |draws| > 0 then draws[1..] else []);
      assert Distinct(pool) ==> pool[idx] !in tail;
      [pool[idx]] + tail
  }

  /** `random.sample(list(range(0, n)), k)` driven by the draw stream `draws`. */
  function Sample(n: nat, k: nat, draws: seq<nat>): (r: Result<seq<nat>, SampleError>)
    ensures r.Failure? <==> k > n
    ensures r.Success? ==> |r.value| == k && Distinct(r.value) && Below(r.value, n)
  {
    if k > n then Failure(SampleLargerThanPopulation)
    else
      var r := SampleFrom(Range(n), k, draws);
      assert forall x :: x in Range(n) ==> x < n;
      assert forall i :: 0 <= i < |r| ==> r[i] in r;
      Success(r)
  }

  /** Every index names one of `n` children. */
  predicate Below(s: seq<nat>, n: nat) {
    forall i :: 0 <= i < |s| ==> s[i] < n
  }

  /** Stored choices survive only when there is at least one and every one names a child. */
  predicate Valid(stored: Option<seq<nat>>, n: nat) {
    stored.Some? && |stored.value| > 0 && Below(stored.value, n)
  }

  /** `[children[c] for c in choices]`. */
  function Pick<C>(children: seq<C>, choices: seq<nat>): (r: seq<C>)
    requires Below(choices, |children|)
    ensures |r| == |choices|
    ensures forall k :: 0 <= k < |r| ==> r[k] == children[choices[k]]
  {
    seq(|choices|, k requires 0 <= k < |choices| => children[choices[k]])
  }

  /** `RandomizeModule.__init__`: `stored` is the persisted `choices`, `userGrades` the grade
      summary's `percent` (`None` without a user, a base course or a successful grading),
      `questionCount` the number of questions the grade asks for, `draws` the random source. */
  function Init<C>(stored: Option<seq<nat>>, children: seq<C>, userGrades: Option<real>,
                   questionCount: nat, draws: seq<nat>): (r: Result<Selection<C>, SampleError>)
    ensures Valid(stored, |children|) ==> r == Success(Selection(stored, Some(Pick(children, stored.value))))
    ensures !Valid(stored, |children|) && (|children| == 0 || userGrades.None?) ==> r == Success(Selection(None, None))
    ensures r.Failure? <==> !Valid(stored, |children|) && |children| > 0 && userGrades.Some? && questionCount > |children|
    ensures !Valid(stored, |children|) && |children| > 0 && userGrades.Some? && questionCount <= |children| ==>
      r.Success? && r.value.choices.Some?
    ensures r.Success? && !Valid(stored, |children|) && r.value.choices.Some? ==>
      |r.value.choices.value| == questionCount && Distinct(r.value.choices.value)
    ensures r.Success? ==> (r.value.choices.Some? <==> r.value.childDescriptor.Some?)
    ensures r.Success? && r.value.choices.Some? ==>
      && Below(r.value.choices.value, |children|)
      && |r.value.childDescriptor.value| == |r.value.choices.value|
      && forall k :: 0 <= k < |r.value.choices.value| ==>
           r.value.childDescriptor.value[k] == children[r.value.choices.value[k]]
  {
    var n := |children|;
    var kept := if Valid(stored, n) then stored else None;
    var chosen :- if kept.None? && n > 0 && userGrades.Some? then
                    var s :- Sample(n, questionCount, draws);
                    Success(Some(s))
                  else Success(kept);
    if chosen.Some? then
      Success(Selection(chosen, Some(Pick(children, chosen.value))))
    else
      Success(Selection(None, None))
  }

  /** The same student gets the same children every time: constructing again from the
      choices just stored keeps them, whatever the grades and the random source say then. */
  lemma SelectionIsSticky<C>(stored: Option<seq<nat>>, children: seq<C>, grades1: Option<real>,
                             count1: nat, draws1: seq<nat>, grades2: Option<real>,
                             count2: nat, draws2: seq<nat>)
    requires Init(stored, children, grades1, count1, draws1).Success?
    requires Init(stored, children, grades1, count1, draws1).value.choices.Some?
    requires |Init(stored, children, grades1, count1, draws1).value.choices.value| > 0
    ensures var first := Init(stored, children, grades1, count1, draws1).value;
      Init(first.choices, children, grades2, count2, draws2) == Success(first)
  {
    var first := Init(stored, children, grades1, count1, draws1).value;
    assert Valid(first.choices, |children|);
  }

  /** `get_child_descriptors()`: the chosen children, or none. */
  function ChildDescriptors<C>(sel: Selection<C>): (r: seq<C>)
    ensures sel.childDescriptor.None? ==> r == []
    ensures sel.childDescriptor.Some? ==> r == sel.childDescriptor.value
  {
    sel.childDescriptor.GetOr([])
  }

  /** Adding a child's `max_score()` of `None` to a number raises `TypeError`. */
  datatype ScoreError = UnscoredChild

  /** `sum(scores)`: adds from 0, left to right, and raises at the first `None`. */
  function SumScores(xs: seq<Option<int>>): (r: Result<int, ScoreError>)
    ensures r.Failure? <==> exists i :: 0 <= i < |xs| && xs[i].None?
    decreases |xs|
  {
    if |xs| == 0 then Success(0)
    else if xs[0].None? then Failure(UnscoredChild)
    else
      var rest :- SumScores(xs[1..]);
      assert forall i :: 0 <= i < |xs| - 1 ==> xs[1..][i] == xs[i + 1];
      Success(xs[0].value + rest)
  }

  /** `[f(c) for c in cs]`. */
  function Scores<C, S>(cs: seq<C>, f: C -> S): (r: seq<S>)
    ensures |r| == |cs|
    ensures forall i :: 0 <= i < |cs| ==> r[i] == f(cs[i])
  {
    seq(|cs|, i requires 0 <= i < |cs| => f(cs[i]))
  }

  /** `max_score()`: nothing chosen, no score; otherwise the chosen children's scores summed,
      which raises when one of them has no score. */
  function MaxScore<C>(sel: Selection<C>, maxScoreOf: C -> Option<int>): (r: Result<Option<int>, ScoreError>)
    ensures r == Success(None) <==> sel.childDescriptor.None?
    ensures r.Failure? <==>
      sel.childDescriptor.Some? && exists c :: c in sel.childDescriptor.value && maxScoreOf(c).None?
  {
    if sel.childDescriptor.None? then Success(None)
    else
      var cs := sel.childDescriptor.value;
      var xs := Scores(cs, maxScoreOf);
      assert (exists i :: 0 <= i < |xs| && xs[i].None?) <==> (exists c :: c in cs && maxScoreOf(c).None?) by {
        if c :| c in cs && maxScoreOf(c).None? {
          var i :| 0 <= i < |cs| && cs[i] == c;
          assert xs[i].None?;
        }
      }
      var total :- SumScores(xs);
      Success(Some(total))
  }

  /** A sum over equal scores is the count times the score. */
  lemma {:induction false} SumOfEqualScores(xs: seq<Option<int>>, s: int)
    requires forall i :: 0 <= i < |xs| ==> xs[i] == Some(s)
    ensures SumScores(xs) == Success(|xs| * s)
    decreases |xs|
  {
    if |xs| > 0 {
      SumOfEqualScores(xs[1..], s);
    }
  }

  /** When every child is worth the same `s` points, as the block's documentation demands, a
      student's maximum score is `s` times the number of questions chosen for them. */
  lemma EqualWorthMaxScore<C>(sel: Selection<C>, maxScoreOf: C -> Option<int>, s: int)
    requires sel.childDescriptor.Some?
    requires forall c :: c in sel.childDescriptor.value ==> maxScoreOf(c) == Some(s)
    ensures MaxScore(sel, maxScoreOf) == Success(Some(|sel.childDescriptor.value| * s))
  {
    var xs := Scores(sel.childDescriptor.value, maxScoreOf);
    assert forall i :: 0 <= i < |xs| ==> xs[i] == Some(s) by {
      forall i | 0 <= i < |xs| ensures xs[i] == Some(s) {
        assert sel.childDescriptor.value[i] in sel.childDescriptor.value;
      }
    }
    SumOfEqualScores(xs, s);
  }

  /** `get_child_descriptors()` of a constructed block is exactly the children its choices
      name, in the order of the choices, and nothing when no choice was made. */
  lemma ChildDescriptorsAreTheChosen<C>(stored: Option<seq<nat>>, children: seq<C>, userGrades: Option<real>,
                                        questionCount: nat, draws: seq<nat>)
    requires Init(stored, children, userGrades, questionCount, draws).Success?
    ensures var sel := Init(stored, children, userGrades, questionCount, draws).value;
      && (sel.choices.None? ==> ChildDescriptors(sel) == [])
      && (sel.choices.Some? ==>
            Below(sel.choices.value, |children|) && ChildDescriptors(sel) == Pick(children, sel.choices.value))
  {
    var sel := Init(stored, children, userGrades, questionCount, draws).value;
    if sel.choices.Some? {
      assert ChildDescriptors(sel) == Pick(children, sel.choices.value);
    }
  }

  /** `student_view` shows the "Nothing to randomize between" placeholder when no child was
      chosen. */
  predicate ShowsPlaceholder<C>(sel: Selection<C>) {
    sel.childDescriptor.None?
  }

  /** A constructed block shows the placeholder exactly when it keeps no stored choices and
      cannot draw new ones: it has no children or no grades to draw by. */
  lemma PlaceholderIffNothingChosen<C>(stored: Option<seq<nat>>, children: seq<C>, userGrades: Option<real>,
                                       questionCount: nat, draws: seq<nat>)
    requires Init(stored, children, userGrades, questionCount, draws).Success?
    ensures var sel := Init(stored, children, userGrades, questionCount, draws).value;
      && (ShowsPlaceholder(sel) <==> sel.choices.None?)
      && (ShowsPlaceholder(sel) <==> !Valid(stored, |children|) && (|children| == 0 || userGrades.None?))
  {
  }

  /** `has_dynamic_children()`: grading must go through the chosen children. */
  function HasDynamicChildren(): bool {
    true
  }

  /** The children grading visits: a block with dynamic children is graded through its
      `get_child_descriptors()`, any other through all of the descriptor's children. */
  function GradedChildren<C>(sel: Selection<C>, children: seq<C>): seq<C> {
    if HasDynamicChildren() then ChildDescriptors(sel) else children
  }

  /** A student is graded on exactly the children chosen for them; when a fresh sample was
      drawn, on `questionCount` distinct ones; and the maximum score is the sum over them. */
  lemma GradedChildrenAreTheChosen<C>(stored: Option<seq<nat>>, children: seq<C>, userGrades: Option<real>,
                                      questionCount: nat, draws: seq<nat>, maxScoreOf: C -> Option<int>)
    requires Init(stored, children, userGrades, questionCount, draws).Success?
    ensures var sel := Init(stored, children, userGrades, questionCount, draws).value;
      && (sel.choices.None? ==> GradedChildren(sel, children) == [] && MaxScore(sel, maxScoreOf) == Success(None))
      && (sel.choices.Some? ==>
            && Below(sel.choices.value, |children|)
            && GradedChildren(sel, children) == Pick(children, sel.choices.value)
            && (MaxScore(sel, maxScoreOf).Failure? <==>
                  exists c :: c in GradedChildren(sel, children) && maxScoreOf(c).None?)
            && (MaxScore(sel, maxScoreOf).Success? ==>
                  MaxScore(sel, maxScoreOf).value == Some(SumScores(Scores(GradedChildren(sel, children), maxScoreOf)).value)))
      && (!Valid(stored, |children|) && sel.choices.Some? ==> |GradedChildren(sel, children)| == questionCount)
  {
    ChildDescriptorsAreTheChosen(stored, children, userGrades, questionCount, draws);
  }
}

=== FILE: results.dfy ===
/** Failure-compatible wrappers shared by every module of the model: Python's `None` and
    raised exceptions become `Option` and `Result` values. */
module Results {

  datatype Option<+T> = None | Some(value: T) {

    /** `x or default` for a value that is falsy only when absent. */
    function GetOr(default: T): T {
      match this
      case Some(v) => v
      case None => default
    }
  }

  datatype Result<+R, +E> = Success(value: R) | Failure(error: E) {

    predicate IsFailure() {
      Failure?
    }

    function PropagateFailure<U>(): Result<U, E>
      requires Failure?
    {
      Failure(error)
    }

    function Extract(): R
      requires Success?
    {
      value
    }
  }
}

=== FILE: tab_json.dfy ===
/** Serialisation (`to_json`), equality against a document (`__eq__`), required-field
    validation (`validate`) and construction from a document of the course tabs. The base
    `CourseTab` rules of `xmodule/tabs.py` are not part of this model; they are taken to be:
    a document carries `type` and `name`, equality compares those two, and `type` is required. */
module TabJson {
  import opened Results
  import opened TabModel

  datatype TabError =
    | UnknownTabType(typeName: string)
    | MissingTabField(keys: set<string>)
    | KeyError(key: string)
    | NoDocument
    | SerializationNotSupported

  /** The keys a tab's document carries. */
  function PersistedKeys(t: Tab): set<string> {
    match t
    case Wiki(_, h) => if Truthy(h) then {"type", "name", "is_hidden"} else {"type", "name"}
    case ExternalDiscussion(_) => {"type", "name", "link"}
    case ExternalLink(_, _) => {"type", "name", "link"}
    case Static(_, _) => {"type", "name", "url_slug"}
    case _ => {"type", "name"}
  }

  /** `to_json()`; a textbook leaf refuses to be serialised. */
  function ToJson(t: Tab): (r: Result<Doc, TabError>)
    ensures r.Failure? <==> IsCollectionItem(t)
    ensures r.Failure? ==> r.error == SerializationNotSupported
    ensures r.Success? ==> r.value.Keys == PersistedKeys(t)
    ensures r.Success? ==> r.value["type"] == JStr(TypeName(t)) && r.value["name"] == Name(t)
    ensures r.Success? && IsHideable(t) && Truthy(t.hidden) ==> r.value["is_hidden"] == JBool(true)
    ensures r.Success? && (t.ExternalLink? || t.ExternalDiscussion?) ==> r.value["link"] == t.link
    ensures r.Success? && t.Static? ==> r.value["url_slug"] == t.urlSlug
  {
    if t.SingleTextbook? then Failure(SerializationNotSupported)
    else
      var base := map["type" := JStr(TypeName(t)), "name" := Name(t)];
      match t
      case Wiki(_, h) => Success(if Truthy(h) then base["is_hidden" := JBool(true)] else base)
      case ExternalDiscussion(l) => Success(base["link" := l])
      case ExternalLink(_, l) => Success(base["link" := l])
      case Static(_, slug) => Success(base["url_slug" := slug])
      case _ => Success(base)
  }

  /** `tab == tab_dict`: the base comparison of `type` and `name`, plus the hidden flag of a
      hideable tab (absent reads as false), the link of a link tab and the slug of a static tab. */
  function Eq(t: Tab, d: Doc): (r: bool)
    ensures r ==> Get(d, "type", JNull) == JStr(TypeName(t)) && Get(d, "name", JNull) == Name(t)
    ensures r && t.Wiki? ==> t.hidden == Get(d, "is_hidden", JBool(false))
    ensures r && (t.ExternalLink? || t.ExternalDiscussion?) ==> Get(d, "link", JNull) == t.link
    ensures r && t.Static? ==> Get(d, "url_slug", JNull) == t.urlSlug
  {
    var same := Get(d, "type", JNull) == JStr(TypeName(t)) && Get(d, "name", JNull) == Name(t);
    match t
    case Wiki(_, h) => same && h == Get(d, "is_hidden", JBool(false))
    case ExternalDiscussion(l) => same && l == Get(d, "link", JNull)
    case ExternalLink(_, l) => same && l == Get(d, "link", JNull)
    case Static(_, slug) => same && slug == Get(d, "url_slug", JNull)
    case _ => same
  }

  /** A tab that can be persisted and rebuilt: a registered type, and a boolean hidden flag. */
  predicate WellFormed(t: Tab) {
    KindOf(t).Some? && Registered(KindOf(t).value) && (t.Wiki? ==> t.hidden.JBool?)
  }

  /** On well-formed tabs, comparing with a tab's own document is value equality: the
      document keeps every field equality looks at, and nothing else distinguishes tabs. */
  lemma EqIsValueEquality(t: Tab, u: Tab)
    requires WellFormed(t) && WellFormed(u)
    ensures Eq(t, ToJson(u).value) <==> t == u
  {
    RegisteredKinds(KindOf(t).value);
    RegisteredKinds(KindOf(u).value);
  }

  /** A hideable tab that is not hidden equals a document that says nothing about hiding. */
  lemma MissingHiddenReadsAsFalse(n: JVal, d: Doc)
    requires "is_hidden" !in d
    requires Get(d, "type", JNull) == JStr("wiki") && Get(d, "name", JNull) == n
    ensures Eq(Wiki(n, JBool(false)), d)
    ensures !Eq(Wiki(n, JBool(true)), d)
  {
  }

  /** `key_checker(keys)(tab_dict, raise_error)`. */
  function KeyCheck(keys: set<string>, d: Doc, raiseError: bool): Result<bool, TabError> {
    var missing := keys - d.Keys;
    if missing == {} then Success(true)
    else if raiseError then Failure(MissingTabField(missing))
    else Success(false)
  }

  /** The type-specific part of `validate`, after the base check. */
  function ExtraKeys(k: TabKind): set<string> {
    match k
    case KCourseInfo => {"name"}
    case KProgress => {"name"}
    case KWiki => {"name"}
    case KDiscussion => {"name"}
    case KNotes => {"name"}
    case KExternalDiscussion => {"link"}
    case KExternalLink => {"link"}
    case KStatic => {"name", "url_slug"}
    case _ => {}
  }

  /** The keys each tab type demands of its document: the base `type`, then its own. */
  function RequiredKeys(k: TabKind): set<string> {
    {"type"} + ExtraKeys(k)
  }

  /** `cls.validate(tab_dict, raise_error)`: the base check, then (`and`) the type's own check. */
  function Validate(k: TabKind, d: Doc, raiseError: bool): (r: Result<bool, TabError>)
    ensures r.Success? ==> (r.value <==> RequiredKeys(k) <= d.Keys)
    ensures r.Failure? <==> raiseError && !(RequiredKeys(k) <= d.Keys)
    ensures r.Failure? ==> r.error.MissingTabField? && r.error.keys != {} && r.error.keys <= RequiredKeys(k) - d.Keys
  {
    var base :- KeyCheck({"type"}, d, raiseError);
    if !base then Success(false) else KeyCheck(ExtraKeys(k), d, raiseError)
  }

  /** `tab_dict[key]`: a missing document is not subscriptable, a missing key raises. */
  function Field(doc: Option<Doc>, key: string): (r: Result<JVal, TabError>)
    ensures r.Success? <==> doc.Some? && key in doc.value
    ensures r.Success? ==> r.value == doc.value[key]
  {
    if doc.None? then Failure(NoDocument)
    else if key !in doc.value then Failure(KeyError(key))
    else Success(doc.value[key])
  }

  /** `tab_dict['name'] if tab_dict else default`. */
  function NameOr(doc: Option<Doc>, default: JVal): Result<JVal, TabError> {
    if Given(doc) then Field(doc, "name") else Success(default)
  }

  /** The constructor of each tab type; `titles` is a course view's `title`. */
  function Construct(k: TabKind, doc: Option<Doc>, titles: string -> string): (r: Result<Tab, TabError>)
    ensures r.Success? ==> KindOf(r.value) == Some(k)
    ensures r.Failure? ==> r.error == NoDocument || r.error.KeyError?
  {
    match k
    case KCourseware => Success(Courseware)
    case KCourseInfo =>
      var n :- NameOr(doc, JStr("Course Info"));
      Success(CourseInfo(n))
    case KProgress =>
      var n :- NameOr(doc, JStr("Progress"));
      Success(Progress(n))
    case KWiki =>
      var n :- NameOr(doc, JStr("Wiki"));
      Success(Wiki(n, if Given(doc) then Get(doc.value, "is_hidden", JBool(false)) else JBool(false)))
    case KDiscussion =>
      var n :- NameOr(doc, JStr("Discussion"));
      Success(Discussion(n))
    case KExternalDiscussion =>
      var l :- if Given(doc) then Field(doc, "link") else Success(JNull);
      Success(ExternalDiscussion(l))
    case KExternalLink =>
      var n :- Field(doc, "name");
      var l :- Field(doc, "link");
      Success(ExternalLink(n, l))
    case KStatic =>
      var slug :- if Given(doc) then Field(doc, "url_slug") else Success(JNull);
      var n :- if Given(doc) then Field(doc, "name") else Success(JNull);
      Success(Static(n, slug))
    case KTextbooks(s) => Success(TextbookCollection(s))
    case KStaffGrading => Success(StaffGrading)
    case KPeerGrading => Success(PeerGrading)
    case KOpenEnded => Success(OpenEndedGrading)
    case KSyllabus => Success(Syllabus)
    case KNotes =>
      var n :- Field(doc, "name");
      Success(Notes(n))
    case KCourseView(v) =>
      var n :- NameOr(doc, JStr(titles(v)));
      Success(CourseView(v, n))
  }

  /** A document that validates can be constructed, except that a course view and an
      external link also need a `name` their validation does not ask for. */
  lemma ValidDocumentsConstruct(k: TabKind, d: Doc, titles: string -> string)
    requires Validate(k, d, false) == Success(true)
    requires k.KCourseView? || k.KExternalLink? ==> "name" in d
    ensures Construct(k, Some(d), titles).Success?
  {
    assert RequiredKeys(k) <= d.Keys;
    NonEmptyIsGiven(d, "type");
    match k {
      case KStatic => assert "url_slug" in d && "name" in d;
      case KExternalLink => assert "link" in d && "name" in d;
      case _ =>
    }
  }

  /** A document with any key in it counts as given (`if tab_dict:` holds). */
  lemma NonEmptyIsGiven(d: Doc, key: string)
    requires key in d
    ensures Given(Some(d))
  {
    assert key in d.Keys;
  }

  /** Rebuilds a tab from its document through the registry: look the type up, validate
      (raising), construct. */
  function FromJson(d: Doc, titles: string -> string): (r: Result<Tab, TabError>)
    ensures r.Success? ==> "type" in d && d["type"] == JStr(TypeName(r.value))
    ensures r.Success? ==> KindOf(r.value).Some? && RequiredKeys(KindOf(r.value).value) <= d.Keys
    ensures "type" in d && d["type"].JStr? && Lookup(d["type"].s).None? ==> r == Failure(UnknownTabType(d["type"].s))
  {
    if "type" !in d then Failure(MissingTabField({"type"}))
    else if !d["type"].JStr? then Failure(UnknownTabType(Format(d["type"])))
    else
      match Lookup(d["type"].s)
      case None => Failure(UnknownTabType(d["type"].s))
      case Some(k) =>
        var _ :- Validate(k, d, true);
        Construct(k, Some(d), titles)
  }

  /** Serialising a well-formed tab and rebuilding it through the registry gives it back. */
  lemma RoundTrip(t: Tab, titles: string -> string)
    requires WellFormed(t)
    ensures ToJson(t).Success?
    ensures FromJson(ToJson(t).value, titles) == Success(t)
  {
    var k := KindOf(t).value;
    RegisteredKinds(k);
    var d := ToJson(t).value;
    assert d["type"] == JStr(KindName(k));
    assert Lookup(KindName(k)) == Some(k);
    assert RequiredKeys(k) <= d.Keys;
    assert Validate(k, d, true) == Success(true);
    assert FromJson(d, titles) == Construct(k, Some(d), titles);
    ConstructFromOwnDocument(t, titles);
  }

  /** Each constructor reads back exactly the fields `to_json` wrote. */
  lemma ConstructFromOwnDocument(t: Tab, titles: string -> string)
    requires KindOf(t).Some? && (t.Wiki? ==> t.hidden.JBool?)
    ensures ToJson(t).Success?
    ensures Construct(KindOf(t).value, Some(ToJson(t).value), titles) == Success(t)
  {
    NonEmptyIsGiven(ToJson(t).value, "type");
    if t.Wiki? || t.ExternalDiscussion? || t.ExternalLink? || t.Static? {
      ExtraFieldsReadBack(t, titles);
    } else if t.CourseInfo? || t.Progress? || t.Discussion? || t.Notes? || t.CourseView? {
      NameReadsBack(t, titles);
    }
  }

  /** The tabs whose document holds only `type` and `name` get their name back. */
  lemma NameReadsBack(t: Tab, titles: string -> string)
    requires t.CourseInfo? || t.Progress? || t.Discussion? || t.Notes? || t.CourseView?
    ensures Construct(KindOf(t).value, Some(ToJson(t).value), titles) == Success(t)
  {
    var d := ToJson(t).value;
    NonEmptyIsGiven(d, "type");
    assert d["name"] == t.name;
  }

  /** The hidden flag, the link and the slug are read back too. */
  lemma ExtraFieldsReadBack(t: Tab, titles: string -> string)
    requires t.Wiki? || t.ExternalDiscussion? || t.ExternalLink? || t.Static?
    requires t.Wiki? ==> t.hidden.JBool?
    ensures Construct(KindOf(t).value, Some(ToJson(t).value), titles) == Success(t)
  {
    var d := ToJson(t).value;
    NonEmptyIsGiven(d, "type");
    match t {
      case Wiki(n, h) =>
        assert d["name"] == n;
        assert Get(d, "is_hidden", JBool(false)) == h;
      case ExternalDiscussion(l) => assert d["link"] == l;
      case ExternalLink(n, l) => assert d["name"] == n && d["link"] == l;
      case Static(n, slug) => assert d["name"] == n && d["url_slug"] == slug;
    }
  }
}

=== FILE: tab_links.dfy ===
/** Link resolution of the course tabs: `link_reverse_func` (a named route reversed with the
    course id and, for static tabs and textbook leaves, one more argument) and
    `link_value_func` (a literal URL from the configuration). */
module TabLinks {
  import opened Results
  import opened TabModel

  /** An argument of a route reversal. */
  datatype RouteArg = CourseKey(id: string) | SlugArg(slug: JVal) | IndexArg(index: nat)

  /** How a tab finds its URL. */
  datatype LinkRule = NoLink | Reverse(route: string, args: seq<RouteArg>) | Literal(value: JVal)

  datatype LinkError = RouteNotFound(route: string)

  /** The route a textbook leaf reverses. */
  function LeafRoute(s: Shelf): string {
    match s
    case Books => "book"
    case PdfBooks => "pdf_book"
    case HtmlBooks => "html_book"
  }

  /** The named route of a tab reversed with just the course id; `viewNames` is a course
      view's `view_name`. */
  function RouteOf(t: Tab, viewNames: string -> string): Option<string> {
    match t
    case Courseware => Some("courseware")
    case CourseInfo(_) => Some("info")
    case Progress(_) => Some("progress")
    case Wiki(_, _) => Some("course_wiki")
    case Discussion(_) => Some("django_comment_client.forum.views.forum_form_discussion")
    case StaffGrading => Some("staff_grading")
    case PeerGrading => Some("peer_grading")
    case OpenEndedGrading => Some("open_ended_notifications")
    case Syllabus => Some("syllabus")
    case Notes(_) => Some("notes")
    case CourseView(v, _) => Some(viewNames(v))
    case _ => None
  }

  /** The `link_func` of each tab type. */
  function LinkRuleOf(t: Tab, courseId: string, viewNames: string -> string): (r: LinkRule)
    ensures r.Reverse? ==> |r.args| >= 1 && r.args[0] == CourseKey(courseId)
    ensures r.Literal? <==> t.ExternalLink? || t.ExternalDiscussion?
    ensures r.NoLink? <==> t.TextbookCollection?
  {
    match t
    case ExternalDiscussion(l) => Literal(l)
    case ExternalLink(_, l) => Literal(l)
    case Static(_, slug) => Reverse("static_tab", [CourseKey(courseId), SlugArg(slug)])
    case SingleTextbook(_, s, i) => Reverse(LeafRoute(s), [CourseKey(courseId), IndexArg(i)])
    case TextbookCollection(_) => NoLink
    case _ => Reverse(RouteOf(t, viewNames).value, [CourseKey(courseId)])
  }

  /** The URL of a tab: a literal is returned as configured, a named route is reversed (and
      an unknown route propagates), and a collection has no target of its own. */
  function Link(t: Tab, courseId: string, viewNames: string -> string,
                reverse: (string, seq<RouteArg>) -> Option<string>): (r: Result<Option<JVal>, LinkError>)
    ensures (t.ExternalLink? || t.ExternalDiscussion?) ==> r == Success(Some(t.link))
    ensures t.TextbookCollection? ==> r == Success(None)
    ensures var rule := LinkRuleOf(t, courseId, viewNames);
      r.Failure? <==> rule.Reverse? && reverse(rule.route, rule.args).None?
    ensures var rule := LinkRuleOf(t, courseId, viewNames);
      r.Failure? ==> r.error == RouteNotFound(rule.route)
    ensures var rule := LinkRuleOf(t, courseId, viewNames);
      rule.Reverse? && reverse(rule.route, rule.args).Some? ==>
        r == Success(Some(JStr(reverse(rule.route, rule.args).value)))
  {
    match LinkRuleOf(t, courseId, viewNames)
    case NoLink => Success(None)
    case Literal(v) => Success(Some(v))
    case Reverse(route, args) =>
      match reverse(route, args)
      case None => Failure(RouteNotFound(route))
      case Some(url) => Success(Some(JStr(url)))
  }

  /** A tab's URL depends on the route table only through its own route and arguments:
      two reversal functions that agree there give the same result. */
  lemma LinkDependsOnlyOnItsRoute(t: Tab, courseId: string, viewNames: string -> string,
                                  rev1: (string, seq<RouteArg>) -> Option<string>,
                                  rev2: (string, seq<RouteArg>) -> Option<string>)
    requires var rule := LinkRuleOf(t, courseId, viewNames);
      rule.Reverse? ==> rev1(rule.route, rule.args) == rev2(rule.route, rule.args)
    ensures Link(t, courseId, viewNames, rev1) == Link(t, courseId, viewNames, rev2)
  {
  }

  /** The routes of the tabs reversed with the course id alone, with a static tab's slug,
      or with a textbook leaf's index. */
  lemma NamedRouteLinks(t: Tab, courseId: string, viewNames: string -> string,
                        reverse: (string, seq<RouteArg>) -> Option<string>)
    requires !(t.ExternalLink? || t.ExternalDiscussion? || t.TextbookCollection?)
    ensures var route := if t.Static? then "static_tab"
                         else if t.SingleTextbook? then LeafRoute(t.shelf)
                         else RouteOf(t, viewNames).value;
      var args := if t.Static? then [CourseKey(courseId), SlugArg(t.urlSlug)]
                  else if t.SingleTextbook? then [CourseKey(courseId), IndexArg(t.index)]
                  else [CourseKey(courseId)];
      Link(t, courseId, viewNames, reverse) ==
        if reverse(route, args).Some? then Success(Some(JStr(reverse(route, args).value)))
        else Failure(RouteNotFound(route))
  {
  }

  /** Literal links consult no route table: any two reversal functions give the same URL. */
  lemma LiteralLinksIgnoreRoutes(t: Tab, courseId: string, viewNames: string -> string,
                                 rev1: (string, seq<RouteArg>) -> Option<string>,
                                 rev2: (string, seq<RouteArg>) -> Option<string>)
    requires t.ExternalLink? || t.ExternalDiscussion?
    ensures Link(t, courseId, viewNames, rev1) == Link(t, courseId, viewNames, rev2)
  {
  }

  /** Only an external link has no `tab_id`, so it is never the active tab. */
  lemma OnlyExternalLinksLackId(t: Tab)
    ensures TabId(t).None? <==> t.ExternalLink?
  {
  }
}

=== FILE: tab_model.dfy ===
/** The course-tab value objects of `openedx/core/djangoapps/content/course_views/tabs.py`:
    one constructor per tab class, the scalars of a persisted tab document, the fixed
    per-class attributes, and the static type-name registry of the `openedx.course_view_type`
    entry points in `setup.py`. */
module TabModel {
  import opened Results
  import Text

  /** A scalar of a persisted tab document; `JNull` is Python's `None`. */
  datatype JVal = JStr(s: string) | JBool(b: bool) | JNull

  /** A persisted tab document: `{type, name?, is_hidden?, link?, url_slug?}`. */
  type Doc = map<string, JVal>

  /** Python truthiness of a scalar. */
  predicate Truthy(v: JVal) {
    match v
    case JStr(s) => s != ""
    case JBool(b) => b
    case JNull => false
  }

  /** `'{0}'.format(v)`. */
  function Format(v: JVal): string {
    match v
    case JStr(s) => s
    case JBool(b) => if b then "True" else "False"
    case JNull => "None"
  }

  /** `d.get(key, default)`. */
  function Get(d: Doc, key: string, default: JVal): JVal {
    if key in d then d[key] else default
  }

  /** `if tab_dict:` -- a document is passed and it is not empty. */
  predicate Given(doc: Option<Doc>) {
    doc.Some? && |doc.value| > 0
  }

  /** Which textbook list of the course a collection tab (or one of its leaves) stands for. */
  datatype Shelf = Books | PdfBooks | HtmlBooks

  /** One configured (or, for `SingleTextbook`, expanded) course tab. */
  datatype Tab =
    | Courseware
    | CourseInfo(name: JVal)
    | Progress(name: JVal)
    | Wiki(name: JVal, hidden: JVal)
    | Discussion(name: JVal)
    | ExternalDiscussion(link: JVal)
    | ExternalLink(name: JVal, link: JVal)
    | Static(name: JVal, urlSlug: JVal)
    | SingleTextbook(name: JVal, shelf: Shelf, index: nat)
    | TextbookCollection(shelf: Shelf)
    | StaffGrading
    | PeerGrading
    | OpenEndedGrading
    | Syllabus
    | Notes(name: JVal)
    | CourseView(view: string, name: JVal)

  /** A registered tab type: what a `type` string in a document constructs. */
  datatype TabKind =
    | KCourseware | KCourseInfo | KProgress | KWiki | KDiscussion
    | KExternalDiscussion | KExternalLink | KStatic | KTextbooks(shelf: Shelf)
    | KStaffGrading | KPeerGrading | KOpenEnded | KSyllabus | KNotes
    | KCourseView(view: string)

  /** The `type` class attribute of each registered tab type. */
  function KindName(k: TabKind): string {
    match k
    case KCourseware => "courseware"
    case KCourseInfo => "course_info"
    case KProgress => "progress"
    case KWiki => "wiki"
    case KDiscussion => "discussion"
    case KExternalDiscussion => "external_discussion"
    case KExternalLink => "external_link"
    case KStatic => "static_tab"
    case KTextbooks(Books) => "textbooks"
    case KTextbooks(PdfBooks) => "pdf_textbooks"
    case KTextbooks(HtmlBooks) => "html_textbooks"
    case KStaffGrading => "staff_grading"
    case KPeerGrading => "peer_grading"
    case KOpenEnded => "open_ended"
    case KSyllabus => "syllabus"
    case KNotes => "notes"
    case KCourseView(v) => v
  }

  /** The tab type a tab was built from; a textbook leaf is built by expansion, never from a type. */
  function KindOf(t: Tab): Option<TabKind> {
    match t
    case Courseware => Some(KCourseware)
    case CourseInfo(_) => Some(KCourseInfo)
    case Progress(_) => Some(KProgress)
    case Wiki(_, _) => Some(KWiki)
    case Discussion(_) => Some(KDiscussion)
    case ExternalDiscussion(_) => Some(KExternalDiscussion)
    case ExternalLink(_, _) => Some(KExternalLink)
    case Static(_, _) => Some(KStatic)
    case SingleTextbook(_, _, _) => None
    case TextbookCollection(s) => Some(KTextbooks(s))
    case StaffGrading => Some(KStaffGrading)
    case PeerGrading => Some(KPeerGrading)
    case OpenEndedGrading => Some(KOpenEnded)
    case Syllabus => Some(KSyllabus)
    case Notes(_) => Some(KNotes)
    case CourseView(v, _) => Some(KCourseView(v))
  }

  /** The `type` of a tab. */
  function TypeName(t: Tab): string {
    match KindOf(t)
    case Some(k) => KindName(k)
    case None => "single_textbook"
  }

  /** The `tab_id` prefix of the leaves of each textbook collection. */
  function LeafPrefix(s: Shelf): string {
    match s
    case Books => "textbook"
    case PdfBooks => "pdftextbook"
    case HtmlBooks => "htmltextbook"
  }

  /** `tab_id`; an external link has none (`None`: external links are never active). */
  function TabId(t: Tab): Option<string> {
    match t
    case Courseware => Some("courseware")
    case CourseInfo(_) => Some("info")
    case Progress(_) => Some("progress")
    case Wiki(_, _) => Some("wiki")
    case Discussion(_) => Some("discussion")
    case ExternalDiscussion(_) => Some("discussion")
    case ExternalLink(_, _) => None
    case Static(_, slug) => Some("static_tab_" + Format(slug))
    case SingleTextbook(_, s, i) => Some(LeafPrefix(s) + "/" + Text.NatToString(i))
    case TextbookCollection(_) => Some(TypeName(t))
    case StaffGrading => Some("staff_grading")
    case PeerGrading => Some("peer_grading")
    case OpenEndedGrading => Some("open_ended")
    case Syllabus => Some("syllabus")
    case Notes(_) => Some("notes")
    case CourseView(v, _) => Some(v)
  }

  /** The display name; fixed for the types whose constructor ignores the document. */
  function Name(t: Tab): JVal {
    match t
    case Courseware => JStr("Courseware")
    case CourseInfo(n) => n
    case Progress(n) => n
    case Wiki(n, _) => n
    case Discussion(n) => n
    case ExternalDiscussion(_) => JStr("Discussion")
    case ExternalLink(n, _) => n
    case Static(n, _) => n
    case SingleTextbook(n, _, _) => n
    case TextbookCollection(_) => JStr("Textbooks")
    case StaffGrading => JStr("Staff grading")
    case PeerGrading => JStr("Peer grading")
    case OpenEndedGrading => JStr("Open Ended Panel")
    case Syllabus => JStr("Syllabus")
    case Notes(n) => n
    case CourseView(_, n) => n
  }

  /** `is_hideable`: only the wiki tab derives from `HideableTab`. */
  predicate IsHideable(t: Tab) {
    t.Wiki?
  }

  /** `is_collection`. */
  predicate IsCollection(t: Tab) {
    t.TextbookCollection?
  }

  /** `is_collection_item`. */
  predicate IsCollectionItem(t: Tab) {
    t.SingleTextbook?
  }

  /** The `openedx.course_view_type` entry points: type name to tab type. */
  const Registry: map<string, TabKind> := map[
    "ccx" := KCourseView("ccx"),
    "edxnotes" := KCourseView("edxnotes"),
    "instructor" := KCourseView("instructor"),
    "courseware" := KCourseware,
    "course_info" := KCourseInfo,
    "wiki" := KWiki,
    "discussion" := KDiscussion,
    "external_discussion" := KExternalDiscussion,
    "external_link" := KExternalLink,
    "textbooks" := KTextbooks(Books),
    "pdf_textbooks" := KTextbooks(PdfBooks),
    "html_textbooks" := KTextbooks(HtmlBooks),
    "progress" := KProgress,
    "static_tab" := KStatic,
    "peer_grading" := KPeerGrading,
    "staff_grading" := KStaffGrading,
    "open_ended" := KOpenEnded,
    "notes" := KNotes,
    "syllabus" := KSyllabus
  ]

  /** Looks a `type` string up in the registry. */
  function Lookup(typeName: string): (r: Option<TabKind>)
    ensures r.Some? ==> KindName(r.value) == typeName
    ensures typeName == "single_textbook" ==> r.None?
  {
    if typeName in Registry then Some(Registry[typeName]) else None
  }

  /** A tab type the registry knows: every built-in type, and the three plugin views. */
  predicate Registered(k: TabKind) {
    KindName(k) in Registry && Registry[KindName(k)] == k
  }

  /** Every built-in tab type is registered under its own `type`; a view is registered
      exactly when it is one of the plugin entry points. */
  lemma RegisteredKinds(k: TabKind)
    ensures !k.KCourseView? ==> Registered(k)
    ensures k.KCourseView? ==> (Registered(k) <==> k.view in {"ccx", "edxnotes", "instructor"})
  {
  }
}

=== FILE: tab_visibility.dfy ===
/** Per-type visibility (`is_enabled`) of the course tabs, over the course's flags, the
    feature flags, an optional viewer and the opaque access, enrolment, CCX and plugin oracles. */
module TabVisibility {
  import opened Results
  import opened TabModel

  /** The course attributes the visibility rules read; `syllabusPresent` is `None` when the
      course object has no `syllabus_present` attribute at all. */
  datatype Course = Course(
    id: string,
    hideProgressTab: bool,
    allowPublicWikiAccess: bool,
    syllabusPresent: Option<bool>,
    textbooks: seq<string>,
    pdfTextbooks: seq<string>,
    htmlTextbooks: seq<string>)

  /** `settings.WIKI_ENABLED` and `settings.FEATURES`. */
  datatype Settings = Settings(wikiEnabled: bool, features: map<string, bool>)

  /** A requesting user. */
  datatype Viewer = Viewer(id: nat, isAuthenticated: bool)

  /** The collaborators the rules consult, left opaque: staff access (`has_access(user,
      'staff', course)`), enrolment, whether a CCX is current, and a plugin view's own
      `is_enabled`. */
  datatype Oracles = Oracles(
    isStaff: Viewer -> bool,
    isEnrolled: Viewer -> bool,
    currentCcx: bool,
    viewEnabled: (string, Option<Viewer>) -> bool)

  /** `settings.FEATURES.get(flag)` read as a condition; an absent flag is off. */
  predicate Feature(s: Settings, flag: string) {
    flag in s.features && s.features[flag]
  }

  /** `AuthenticatedCourseTab.is_enabled`. */
  predicate AuthenticatedOrPreview(viewer: Option<Viewer>) {
    viewer.None? || viewer.value.isAuthenticated
  }

  /** `StaffTab.is_enabled`. */
  predicate StaffOrPreview(viewer: Option<Viewer>, o: Oracles) {
    viewer.None? || o.isStaff(viewer.value)
  }

  /** `EnrolledOrStaffTab.is_enabled`, i.e. `is_user_enrolled_or_staff` unless there is no viewer. */
  predicate EnrolledOrStaffOrPreview(viewer: Option<Viewer>, o: Oracles) {
    viewer.None? || o.isStaff(viewer.value) || o.isEnrolled(viewer.value)
  }

  /** `is_enabled(course, settings, user)` for every tab type. */
  function IsEnabled(t: Tab, c: Course, s: Settings, viewer: Option<Viewer>, o: Oracles): (r: bool)
    ensures t.Discussion? && Feature(s, "CUSTOM_COURSES_EDX") && o.currentCcx ==> !r
    ensures t.Wiki? && !s.wikiEnabled ==> !r
    ensures t == TextbookCollection(Books) && !Feature(s, "ENABLE_TEXTBOOK") ==> !r
  {
    match t
    case Courseware => EnrolledOrStaffOrPreview(viewer, o)
    case CourseInfo(_) => true
    case Progress(_) => EnrolledOrStaffOrPreview(viewer, o) && !c.hideProgressTab
    case Wiki(_, _) =>
      if !s.wikiEnabled then false
      else if viewer.None? || c.allowPublicWikiAccess then true
      else o.isStaff(viewer.value) || o.isEnrolled(viewer.value)
    case Discussion(_) =>
      if Feature(s, "CUSTOM_COURSES_EDX") && o.currentCcx then false
      else Feature(s, "ENABLE_DISCUSSION_SERVICE") && EnrolledOrStaffOrPreview(viewer, o)
    case ExternalDiscussion(_) => true
    case ExternalLink(_, _) => true
    case Static(_, _) => true
    case SingleTextbook(_, _, _) => true
    case TextbookCollection(Books) => Feature(s, "ENABLE_TEXTBOOK")
    case TextbookCollection(_) => AuthenticatedOrPreview(viewer)
    case StaffGrading => StaffOrPreview(viewer, o)
    case PeerGrading => AuthenticatedOrPreview(viewer)
    case OpenEndedGrading => AuthenticatedOrPreview(viewer)
    case Syllabus => c.syllabusPresent == Some(true)
    case Notes(_) => Feature(s, "ENABLE_STUDENT_NOTES")
    case CourseView(v, _) => AuthenticatedOrPreview(viewer) && o.viewEnabled(v, viewer)
  }

  // ---------------------------------------------------------------------------
  // An independent statement of the policy: each tab type is a role requirement
  // combined with course- and settings-level gates.
  // ---------------------------------------------------------------------------

  /** Who may see a tab once its gates are open. */
  datatype Role = Everyone | Authenticated | EnrolledOrStaff | StaffOnly | WikiReaders

  /** A condition that hides a tab from every viewer when it fails. */
  datatype Gate =
    | FlagOn(flag: string)
    | WikiOn
    | NotInCcx
    | ProgressShown
    | SyllabusShown
    | ViewEnabled(view: string)

  /** The role a tab type demands. */
  function RoleOf(t: Tab): Role {
    match t
    case Courseware => EnrolledOrStaff
    case Progress(_) => EnrolledOrStaff
    case Discussion(_) => EnrolledOrStaff
    case Wiki(_, _) => WikiReaders
    case StaffGrading => StaffOnly
    case TextbookCollection(s) => if s == Books then Everyone else Authenticated
    case PeerGrading => Authenticated
    case OpenEndedGrading => Authenticated
    case CourseView(_, _) => Authenticated
    case _ => Everyone
  }

  /** The gates of a tab type, in the order the source checks them. */
  function GatesOf(t: Tab): seq<Gate> {
    match t
    case Progress(_) => [ProgressShown]
    case Wiki(_, _) => [WikiOn]
    case Discussion(_) => [NotInCcx, FlagOn("ENABLE_DISCUSSION_SERVICE")]
    case TextbookCollection(Books) => [FlagOn("ENABLE_TEXTBOOK")]
    case Syllabus => [SyllabusShown]
    case Notes(_) => [FlagOn("ENABLE_STUDENT_NOTES")]
    case CourseView(v, _) => [ViewEnabled(v)]
    case _ => []
  }

  predicate GateOpen(g: Gate, c: Course, s: Settings, viewer: Option<Viewer>, o: Oracles) {
    match g
    case FlagOn(f) => Feature(s, f)
    case WikiOn => s.wikiEnabled
    case NotInCcx => !(Feature(s, "CUSTOM_COURSES_EDX") && o.currentCcx)
    case ProgressShown => !c.hideProgressTab
    case SyllabusShown => c.syllabusPresent == Some(true)
    case ViewEnabled(v) => o.viewEnabled(v, viewer)
  }

  predicate RoleAllows(r: Role, c: Course, viewer: Option<Viewer>, o: Oracles) {
    match r
    case Everyone => true
    case Authenticated => viewer.None? || viewer.value.isAuthenticated
    case EnrolledOrStaff => viewer.None? || o.isStaff(viewer.value) || o.isEnrolled(viewer.value)
    case StaffOnly => viewer.None? || o.isStaff(viewer.value)
    case WikiReaders =>
      viewer.None? || c.allowPublicWikiAccess || o.isStaff(viewer.value) || o.isEnrolled(viewer.value)
  }

  predicate GatesOpen(t: Tab, c: Course, s: Settings, viewer: Option<Viewer>, o: Oracles) {
    forall i :: 0 <= i < |GatesOf(t)| ==> GateOpen(GatesOf(t)[i], c, s, viewer, o)
  }

  /** The per-class `is_enabled` methods implement exactly the role-and-gates policy. */
  lemma IsEnabledFollowsPolicy(t: Tab, c: Course, s: Settings, viewer: Option<Viewer>, o: Oracles)
    ensures IsEnabled(t, c, s, viewer, o) <==> GatesOpen(t, c, s, viewer, o) && RoleAllows(RoleOf(t), c, viewer, o)
  {
    var gs := GatesOf(t);
    if |gs| == 1 {
      assert GatesOpen(t, c, s, viewer, o) <==> GateOpen(gs[0], c, s, viewer, o);
    } else if |gs| == 2 {
      assert GatesOpen(t, c, s, viewer, o) <==> GateOpen(gs[0], c, s, viewer, o) && GateOpen(gs[1], c, s, viewer, o);
    }
  }

  /** With no viewer (authoring preview) no role requirement hides anything: a tab is shown
      exactly when its gates are open. */
  lemma PreviewShowsEveryGatedTab(t: Tab, c: Course, s: Settings, o: Oracles)
    ensures IsEnabled(t, c, s, None, o) <==> GatesOpen(t, c, s, None, o)
  {
    IsEnabledFollowsPolicy(t, c, s, None, o);
  }

  /** A viewer with staff access sees every staff-only and enrolled-or-staff tab whose gates
      are open, whatever their enrolment. */
  lemma StaffSeesRoleGatedTabs(t: Tab, c: Course, s: Settings, v: Viewer, o: Oracles)
    requires o.isStaff(v)
    requires RoleOf(t) in {EnrolledOrStaff, StaffOnly, WikiReaders}
    requires GatesOpen(t, c, s, Some(v), o)
    ensures IsEnabled(t, c, s, Some(v), o)
  {
    IsEnabledFollowsPolicy(t, c, s, Some(v), o);
  }

  /** The authenticated-only rule: shown iff there is no viewer or the viewer is authenticated. */
  lemma AuthenticatedOnlyRule(t: Tab, c: Course, s: Settings, viewer: Option<Viewer>, o: Oracles)
    requires t.PeerGrading? || t.OpenEndedGrading? || t == TextbookCollection(PdfBooks) || t == TextbookCollection(HtmlBooks)
    ensures IsEnabled(t, c, s, viewer, o) <==> viewer.None? || viewer.value.isAuthenticated
  {
  }

  /** The enrolled-or-staff rule of the courseware tab. */
  lemma EnrolledOrStaffRule(c: Course, s: Settings, viewer: Option<Viewer>, o: Oracles)
    ensures IsEnabled(Courseware, c, s, None, o)
    ensures viewer.Some? ==>
      (IsEnabled(Courseware, c, s, viewer, o) <==> o.isStaff(viewer.value) || o.isEnrolled(viewer.value))
  {
  }

  /** The staff rule: shown iff there is no viewer or the viewer has staff access. */
  lemma StaffOnlyRule(c: Course, s: Settings, viewer: Option<Viewer>, o: Oracles)
    ensures IsEnabled(StaffGrading, c, s, viewer, o) <==> viewer.None? || o.isStaff(viewer.value)
  {
  }

  /** The progress tab is the courseware rule further gated by `hide_progress_tab`. */
  lemma ProgressRule(n: JVal, c: Course, s: Settings, viewer: Option<Viewer>, o: Oracles)
    ensures IsEnabled(Progress(n), c, s, viewer, o) <==>
      IsEnabled(Courseware, c, s, viewer, o) && !c.hideProgressTab
  {
  }

  /** The wiki: never without `WIKI_ENABLED`; otherwise public wikis and previews are open to all
      and everyone else falls back to the enrolled-or-staff rule. */
  lemma WikiRule(n: JVal, h: JVal, c: Course, s: Settings, viewer: Option<Viewer>, o: Oracles)
    ensures !s.wikiEnabled ==> !IsEnabled(Wiki(n, h), c, s, viewer, o)
    ensures s.wikiEnabled && (viewer.None? || c.allowPublicWikiAccess) ==> IsEnabled(Wiki(n, h), c, s, viewer, o)
    ensures s.wikiEnabled && !c.allowPublicWikiAccess ==>
      (IsEnabled(Wiki(n, h), c, s, viewer, o) <==> IsEnabled(Courseware, c, s, viewer, o))
  {
  }

  /** The discussion tab: hidden inside a CCX when custom courses are on, whatever the role;
      otherwise it needs the discussion service and the enrolled-or-staff rule. */
  lemma DiscussionRule(n: JVal, c: Course, s: Settings, viewer: Option<Viewer>, o: Oracles)
    ensures !(Feature(s, "CUSTOM_COURSES_EDX") && o.currentCcx) ==>
      (IsEnabled(Discussion(n), c, s, viewer, o) <==>
        Feature(s, "ENABLE_DISCUSSION_SERVICE") && IsEnabled(Courseware, c, s, viewer, o))
  {
  }
}

=== FILE: text.dfy ===
/** String helpers with Python's semantics: `str(n)` for a non-negative int and `sep.join(xs)`. */
module Text {

  /** The decimal digit character for `d`. */
  function DigitChar(d: nat): (c: char)
    requires d < 10
    ensures '0' <= c <= '9'
    ensures c as int - '0' as int == d
  {
    ('0' as int + d) as char
  }

  /** `str(n)` for a non-negative integer: decimal, no sign, no leading zeros. */
  function NatToString(n: nat): (s: string)
    ensures |s| >= 1
    ensures forall i :: 0 <= i < |s| ==> '0' <= s[i] <= '9'
    decreases n
  {
    if n < 10 then [DigitChar(n)] else NatToString(n / 10) + [DigitChar(n % 10)]
  }

  /** One digit exactly for the numbers below ten. */
  lemma {:induction false} NatToStringSingleDigit(n: nat)
    ensures |NatToString(n)| == 1 <==> n < 10
  {
    if n >= 10 {
      assert |NatToString(n)| == |NatToString(n / 10)| + 1;
    }
  }

  /** Distinct numbers print differently, so identifiers built from indices never collide. */
  lemma {:induction false} NatToStringInjective(a: nat, b: nat)
    requires NatToString(a) == NatToString(b)
    ensures a == b
    decreases a
  {
    NatToStringSingleDigit(a);
    NatToStringSingleDigit(b);
    var s := NatToString(a);
    if a < 10 {
      assert s[0] as int - '0' as int == a;
      assert s[0] as int - '0' as int == b;
    } else {
      var k := |s| - 1;
      assert s == NatToString(a / 10) + [DigitChar(a % 10)];
      assert s == NatToString(b / 10) + [DigitChar(b % 10)];
      assert NatToString(a / 10) == s[..k] == NatToString(b / 10);
      assert s[k] as int - '0' as int == a % 10 == b % 10;
      NatToStringInjective(a / 10, b / 10);
    }
  }

  /** `sep.join(xs)`. */
  function Join(sep: string, xs: seq<string>): string
    decreases |xs|
  {
    if |xs| == 0 then ""
    else if |xs| == 1 then xs[0]
    else xs[0] + sep + Join(sep, xs[1..])
  }

  /** Every element followed by its own terminator: the shape of a text body made of lines. */
  function Terminated(term: string, xs: seq<string>): (r: string)
    ensures |r| == SumLengths(xs) + |xs| * |term|
    decreases |xs|
  {
    if |xs| == 0 then "" else xs[0] + term + Terminated(term, xs[1..])
  }

  /** Total length of a sequence of strings. */
  function SumLengths(xs: seq<string>): nat
    decreases |xs|
  {
    if |xs| == 0 then 0 else |xs[0]| + SumLengths(xs[1..])
  }

  /** Joining with a trailing empty element terminates every element, the last one included. */
  lemma {:induction false} JoinWithTrailingEmpty(sep: string, xs: seq<string>)
    ensures Join(sep, xs + [""]) == Terminated(sep, xs)
    decreases |xs|
  {
    if |xs| == 0 {
      assert xs + [""] == [""];
    } else {
      var ys := xs + [""];
      assert ys[1..] == xs[1..] + [""];
      JoinWithTrailingEmpty(sep, xs[1..]);
      if |xs| == 1 {
        assert Join(sep, ys[1..]) == "";
      }
    }
  }
}

=== FILE: textbooks.dfy ===
/** Expansion of the three textbook collection tabs into one transient leaf tab per textbook
    of the course (`items`). */
module Textbooks {
  import opened Results
  import Text
  import opened TabModel
  import TabVisibility
  import TabJson
  import TabLinks

  /** The course's list backing a collection: `textbooks` (by `title`), `pdf_textbooks` and
      `html_textbooks` (by `tab_title`). */
  function Shelved(c: TabVisibility.Course, s: Shelf): seq<string> {
    match s
    case Books => c.textbooks
    case PdfBooks => c.pdfTextbooks
    case HtmlBooks => c.htmlTextbooks
  }

  /** `enumerate(titles)` starting at `start`, one leaf per title. */
  function Leaves(titles: seq<string>, s: Shelf, start: nat): (r: seq<Tab>)
    ensures |r| == |titles|
    ensures forall i :: 0 <= i < |r| ==> r[i] == SingleTextbook(JStr(titles[i]), s, start + i)
    decreases |titles|
  {
    if |titles| == 0 then []
    else [SingleTextbook(JStr(titles[0]), s, start)] + Leaves(titles[1..], s, start + 1)
  }

  /** `items(course)` of a textbook collection tab. */
  function Items(t: Tab, c: TabVisibility.Course): (r: seq<Tab>)
    requires IsCollection(t)
    ensures |r| == |Shelved(c, t.shelf)|
    ensures forall i :: 0 <= i < |r| ==>
      && IsCollectionItem(r[i])
      && Name(r[i]) == JStr(Shelved(c, t.shelf)[i])
      && TabId(r[i]) == Some(LeafPrefix(t.shelf) + "/" + Text.NatToString(i))
  {
    Leaves(Shelved(c, t.shelf), t.shelf, 0)
  }

  /** The leaves' ids are pairwise distinct. */
  lemma LeafIdsDistinct(t: Tab, c: TabVisibility.Course, i: nat, j: nat)
    requires IsCollection(t)
    requires i < j < |Items(t, c)|
    ensures TabId(Items(t, c)[i]) != TabId(Items(t, c)[j])
  {
    var p := LeafPrefix(t.shelf) + "/";
    var a := p + Text.NatToString(i);
    var b := p + Text.NatToString(j);
    if a == b {
      assert a[|p|..] == Text.NatToString(i);
      assert b[|p|..] == Text.NatToString(j);
      Text.NatToStringInjective(i, j);
    }
  }

  /** A leaf reverses its shelf's route with the course id and its own index, and refuses
      to be serialised. */
  lemma LeavesLinkByIndex(t: Tab, c: TabVisibility.Course, i: nat, viewNames: string -> string)
    requires IsCollection(t)
    requires i < |Items(t, c)|
    ensures TabLinks.LinkRuleOf(Items(t, c)[i], c.id, viewNames)
      == TabLinks.Reverse(TabLinks.LeafRoute(t.shelf), [TabLinks.CourseKey(c.id), TabLinks.IndexArg(i)])
    ensures TabJson.ToJson(Items(t, c)[i]) == Failure(TabJson.SerializationNotSupported)
  {
    assert Items(t, c)[i] == SingleTextbook(JStr(Shelved(c, t.shelf)[i]), t.shelf, i);
  }
}
